=== FILE: README.md ===
# Dashboard permission filters, modelled in Dafny

This project models the SQL filter builders of Grafana's dashboard search
(`pkg/services/sqlstore/permissions/dashboard.go`). They turn who the caller is
into a WHERE fragment, and sometimes a `WITH RECURSIVE` preamble, that the
search query embeds. The model covers:

- the **legacy role filter** (`DashboardPermissionFilter.Where`). It builds its
  predicate from the basic organisation role and the dashboard ACL table.
- the **fine-grained filter** (`NewAccessControlDashboardPermissionFilter`,
  `buildClauses`, `actionsToCheck`, `addRecQry`, `With`). It derives the
  required actions from the query type and permission level. It drops actions
  already granted through a wildcard. The rest become scope-membership
  subselects on dashboard rows and folder rows. With nested folders on, each
  folder-scope subselect moves into a named recursive definition.

SQL text is a sequence of segments: `Text(s)` for literal SQL and
`Placeholder` for a `?`. The literal SQL contains no other `?`. A `Clause`
pairs such text with its ordered parameters. The central invariant is
`WellFormed`: the number of placeholders equals the number of parameters.
`Bind` shows the order is right as well: it replaces the n-th placeholder
with the n-th parameter.

Modules:

- `Org`: the roles.
- `Sql`: the clause accumulator.
- `Dashboards`: constants and the action table.
- `LegacyFilter`: the legacy role filter.
- `Wildcards`: the wildcard resolver.
- `RecursiveQueries`: recursive definitions and the preamble.
- `Scratch`: the slice aliasing that the defensive copy guards against.
- `PermissionFilter`: the predicate compiler.

Nothing is mutated. Where the Go code appends to a builder or to the filter's
list of definitions, the model returns a fresh value: small builders are
functions, and the branch and compiler steps are methods whose contracts
state what they return.

Code that is not part of this model is passed in as a parameter:

- the role filter from `accesscontrol.UserRolesFilter`/`GetOrgRoles`, as a
  `Clause` that is required to be `WellFormed`;
- the containment tests `Wildcards.Contains` of the two
  `WildcardsFromPrefix` results, as `string -> bool`;
- the dialect's `BooleanStr(false)`, as a string;
- the nested-folders feature toggle, as a `bool`.

The constants come from the `dashboards`, `accesscontrol` and `searchstore`
packages, which are not part of this model: the action names and the
permission levels View = 1, Edit = 2, Admin = 4. Their values are written
into `Dashboards`.

Three details of the code are narrower than a quick reading suggests; the
model follows the code:

- The legacy filter's acceptable roles do not depend on the requested
  level. They are the caller's role, plus Viewer when the role is Editor
  (lines 33-36).
- "Needs edit" is `level > VIEW` (line 105), not a `>=` threshold on an
  enumeration.
- The dashboard branch's inherited-from-folder check uses the dashboard
  actions still to check, matched against `folders:uid:` scopes
  (lines 193-204). It does not use the folder actions.

## Model

| member | source | states |
|---|---|---|
| Sql.PlaceholdersAppend | pkg/services/sqlstore/permissions/dashboard.go:87-90 | Placeholders add up under text concatenation, so concatenating two well-formed clauses gives a well-formed clause |
| Sql.PlaceholderList | pkg/services/sqlstore/permissions/dashboard.go:185 | `?` followed by `k-1` copies of `sep ?` holds exactly k placeholders and nothing but placeholders and separators |
| Sql.ValueList | pkg/services/sqlstore/permissions/dashboard.go:54 | a non-empty list of values bound to such a list gives a well-formed clause carrying exactly those values |
| Sql.BindPositional | pkg/services/sqlstore/permissions/dashboard.go:87-90 | in a well-formed clause the n-th placeholder carries the n-th parameter: reading the bound values in text order gives the parameter list back |
| Sql.BindThen | pkg/services/sqlstore/permissions/dashboard.go:178-179 | concatenating clauses keeps each parameter paired with its own placeholder: binding the concatenation equals concatenating the bindings |
| LegacyFilter.OkRoles | pkg/services/sqlstore/permissions/dashboard.go:33-36 | the acceptable roles start with the caller's role and are two for an Editor and one otherwise; Viewer is among them exactly for Viewer and Editor; Admin never appears for another role. So the list is `[Editor, Viewer]` for an Editor and `[role]` for anyone else |
| LegacyFilter.RoleParamsInOrder | pkg/services/sqlstore/permissions/dashboard.go:80-83 | the role values appended to the parameters are the acceptable roles themselves, one per role, in the same order |
| LegacyFilter.RoleList | pkg/services/sqlstore/permissions/dashboard.go:54 | the `(?,?,…)` role list is well formed and binds the acceptable roles' values, one per role, in order |
| LegacyFilter.ExplicitGrantees | pkg/services/sqlstore/permissions/dashboard.go:51-55 | the principal condition is well formed and binds the user twice (direct entry, then team membership), then the acceptable roles |
| LegacyFilter.ExplicitAclSubquery | pkg/services/sqlstore/permissions/dashboard.go:40-55 | the explicit-ACL subquery is well formed and binds org, level, user, user, then the acceptable roles |
| LegacyFilter.DefaultAclSubquery | pkg/services/sqlstore/permissions/dashboard.go:56-74 | the default-permission subquery is well formed and binds org, level, user, then the acceptable roles; the dialect's false literal is written into the text, not bound |
| LegacyFilter.Where | pkg/services/sqlstore/permissions/dashboard.go:28-85 | an admin gets the empty predicate with no parameters, whatever the level, user or organisation. Any other role gets a well-formed predicate with 7 + 2·(number of acceptable roles) parameters, ordered org, level, user, user, roles…, org, level, user, roles…, which its placeholders carry in text order; the false literal appears in the text |
| Dashboards.DeriveActions | pkg/services/sqlstore/permissions/dashboard.go:104-138 | at least one action list is non-empty; a non-empty list starts with its read action and has no duplicates; a change action is present exactly when the level exceeds View |
| Dashboards.ActionTable | pkg/services/sqlstore/permissions/dashboard.go:105-138 | the decision table row by row: the folder, dashboard, alert-folder and mixed query types with and without the edit action |
| Dashboards.MixedIsUnionOfKinds | pkg/services/sqlstore/permissions/dashboard.go:109-138 | a mixed query asks on each kind of row exactly what the single-kind query asks; single-kind queries leave the other list empty |
| Dashboards.LevelThreshold | pkg/services/sqlstore/permissions/dashboard.go:105 | only `level > View` matters. Every higher level yields the Admin-level lists. Each non-empty View-level list is a prefix of the result and grows by exactly one action |
| Wildcards.ActionsToCheck | pkg/services/sqlstore/permissions/dashboard.go:297-318 | the result is never longer than the input |
| Wildcards.ActionsToCheckOrdered | pkg/services/sqlstore/permissions/dashboard.go:297-318 | the result is a subsequence of the input: the kept actions stay in input order |
| Wildcards.ActionsToCheckMembers | pkg/services/sqlstore/permissions/dashboard.go:297-318 | an action is in the result exactly when it is required and none of its granted scopes is covered by a wildcard |
| Wildcards.ActionsToCheckCounts | pkg/services/sqlstore/permissions/dashboard.go:297-318 | each kept action occurs as often as in the input; an action covered by a wildcard does not occur |
| Wildcards.ScanForWildcard | pkg/services/sqlstore/permissions/dashboard.go:301-311 | the nested scan with its labelled break reports a wildcard exactly when some granted scope is contained by some wildcard |
| Wildcards.ResolveActions | pkg/services/sqlstore/permissions/dashboard.go:297-318 | the resolver loop computes exactly the order-preserving filter |
| Wildcards.UngrantedActionIsKept | pkg/services/sqlstore/permissions/dashboard.go:300-315 | an action with no granted scopes is always kept for an explicit check |
| Wildcards.EmptyMeansAllSatisfied | pkg/services/sqlstore/permissions/dashboard.go:297-318 | the result is empty exactly when every required action is granted through a wildcard |
| Wildcards.MoreWildcardsCheckLess | pkg/services/sqlstore/permissions/dashboard.go:174 | resolving against more wildcards (dashboard and folder, as for dashboard actions) leaves a subsequence of what fewer wildcards leave |
| PermissionFilter.DashboardToCheckMembers | pkg/services/sqlstore/permissions/dashboard.go:174 | a dashboard action stays to be checked exactly when it is required and none of its granted scopes is covered by a dashboard wildcard or a folder wildcard |
| PermissionFilter.FolderToCheckMembers | pkg/services/sqlstore/permissions/dashboard.go:232 | a folder action stays to be checked exactly when it is required and none of its granted scopes is covered by a folder wildcard; dashboard wildcards play no part |
| RecursiveQueries.RecQueryName | pkg/services/sqlstore/permissions/dashboard.go:209 | the n-th definition is named `RecQry` followed by the `%d` rendering of n |
| RecursiveQueries.DecimalString | pkg/services/sqlstore/permissions/dashboard.go:209 | `%d` writes a natural number as a non-empty string of decimal digits |
| RecursiveQueries.DecimalRoundTrip | pkg/services/sqlstore/permissions/dashboard.go:209 | reading `%d`'s digits back, most significant first, gives the number that was printed |
| RecursiveQueries.RecQueryNameReadsBack | pkg/services/sqlstore/permissions/dashboard.go:209 | everything after `RecQry` in a definition's name is decimal digits, and they read back as the count n the name was made from |
| RecursiveQueries.DecimalStringInjective | pkg/services/sqlstore/permissions/dashboard.go:209 | `%d` renders different numbers differently |
| RecursiveQueries.RecQueryNamesDistinct | pkg/services/sqlstore/permissions/dashboard.go:250 | definitions created at different counts never share a name, so the preamble never defines a name twice |
| RecursiveQueries.Definition | pkg/services/sqlstore/permissions/dashboard.go:289-292 | a recursive definition starts with its name, embeds the selector verbatim after its header, binds exactly the selector's parameters, and is well formed when the selector is |
| RecursiveQueries.AddRecQuery | pkg/services/sqlstore/permissions/dashboard.go:285-295 | appends one definition and leaves the earlier ones unchanged. The new definition is the definition of that name over the selector, carrying the selector's parameters. Well-formedness and in-order naming are kept |
| RecursiveQueries.With | pkg/services/sqlstore/permissions/dashboard.go:269-283 | no definitions give the empty preamble. Otherwise the preamble is `WITH RECURSIVE` followed by the definitions comma-joined in creation order, spelt out for one and for two definitions. Its parameters are the definitions' parameters in the same order, and it is well formed when they all are |
| RecursiveQueries.NamesDistinct | pkg/services/sqlstore/permissions/dashboard.go:209 | the first two definitions are named `RecQry0` and `RecQry1`, which differ |
| RecursiveQueries.AllParamsSnoc | pkg/services/sqlstore/permissions/dashboard.go:275-279 | appending a definition appends its parameters to the preamble's |
| RecursiveQueries.CommaPrefixed | pkg/services/sqlstore/permissions/dashboard.go:276-280 | the definitions after the first, each preceded by `,`, carry exactly their parameters in creation order, and the result is well formed when each definition is |
| Scratch.Append | pkg/services/sqlstore/permissions/dashboard.go:240 | Go's `append` extends the slice's contents by one value. It writes in place while capacity remains, and leaves every other backing array untouched |
| Scratch.AppendAll | pkg/services/sqlstore/permissions/dashboard.go:243 | `append(s, xs...)` extends the contents by exactly those values. When they fit in the capacity it writes in place; otherwise the slice moves to one new array and the old array is left as it was. Every other array is untouched, and the cells the slice showed before keep their values |
| Scratch.AppendIsAppendAllOfOne | pkg/services/sqlstore/permissions/dashboard.go:240 | appending one value is appending the one-element list: both take the same branch and give the same memory |
| Scratch.RefillOverwrites | pkg/services/sqlstore/permissions/dashboard.go:223-225 | after `args[:0]`, refilling with no more values than before overwrites the cells an earlier slice of the same buffer shows |
| Scratch.SharedSliceIsCorrupted | pkg/services/sqlstore/permissions/dashboard.go:285-287 | a definition keeping a slice instead of a copy would see the folder branch's refill, while a copy made into its own array keeps the captured parameters, which is why `addRecQry` copies |
| PermissionFilter.RolesFilter | pkg/services/sqlstore/permissions/dashboard.go:164-165 | the role-id restriction binds exactly the role filter's parameters and is well formed when the filter is |
| PermissionFilter.ActionCheck | pkg/services/sqlstore/permissions/dashboard.go:181-188 | one action binds that action. k > 1 actions bind the k action values and then the count k, and only then does the text carry the `HAVING COUNT(action) = ?` clause, so a scope must be granted for all k actions |
| PermissionFilter.ScopeSelector | pkg/services/sqlstore/permissions/dashboard.go:176-189 | a scope-membership subselect opens with its scope test and binds the role filter's parameters, then the action check's |
| PermissionFilter.FolderSelector | pkg/services/sqlstore/permissions/dashboard.go:195-205 | the closed folder-scope subselect binds the same parameters as a scope check and ends with the closing parenthesis |
| PermissionFilter.RecQueryUids | pkg/services/sqlstore/permissions/dashboard.go:211 | the reference to a definition is one literal segment that binds nothing and spells the definition's name between `(SELECT uid FROM ` and `)` |
| PermissionFilter.FolderUidSet | pkg/services/sqlstore/permissions/dashboard.go:206-215 | with nested folders the folder uids come from a new definition named `RecQry<n>` after the n existing ones, defined over the selector and carrying its parameters, and the reference binds nothing; otherwise the selector is used inline with its parameters and no definition is added |
| PermissionFilter.DashboardScopeCheck | pkg/services/sqlstore/permissions/dashboard.go:176-216 | the dashboard branch for actions left to check opens with the dashboard-scope test. Inlined, it binds the check twice (own scopes, then the folder's scopes). The second check is the `folders:uid:` selector: inline in the predicate, or at the head of the new definition's base case when nested. Nested, it binds the check once, adds one definition carrying the check, and ends with the reference to it |
| PermissionFilter.JoinDashboardCheck | pkg/services/sqlstore/permissions/dashboard.go:189-217 | the joined dashboard check is four segments longer than its two parts: it starts as the own-scope test does, the uid set follows the own-scope test after three connecting segments, and it ends with the dashboard row-kind close. It binds the own-scope values before the uid set's |
| PermissionFilter.DashboardBranch | pkg/services/sqlstore/permissions/dashboard.go:173-221 | nothing left to check gives `NOT dashboard.is_folder` with no parameters and no new definition. Otherwise the branch is the dashboard scope check, well formed, binding the check twice when inlined (with the parent-folder scope test inline) and once when nested. Nested, it adds exactly one definition after the existing ones, over parent-folder scopes and binding the check, and its parent-folder test ends by reading that definition by name |
| PermissionFilter.FolderScopeCheck | pkg/services/sqlstore/permissions/dashboard.go:232-258 | the folder branch for actions left to check opens with the folder-uid test. Inlined, it binds the folder check once and the `folders:uid:` selector follows the test. Nested, the selector heads the new definition's base case; the predicate binds nothing, adds one definition carrying the check, and its text is exactly the test, the reference and the row-kind condition |
| PermissionFilter.FolderBranch | pkg/services/sqlstore/permissions/dashboard.go:227-261 | nothing left to check gives `dashboard.is_folder` with no parameters and no new definition. Otherwise the branch is the folder scope check: inlined it holds the folder-scope test and binds the check; nested it is exactly `(dashboard.uid IN (SELECT uid FROM RecQry<n>) AND dashboard.is_folder)`, binds nothing, and adds exactly one definition after the existing ones, over folder scopes and binding the check |
| PermissionFilter.OpenDashboardPart | pkg/services/sqlstore/permissions/dashboard.go:168-221 | the text is `(` followed by the dashboard branch `d` when there are dashboard actions and by nothing otherwise, and it binds exactly `d`'s values. A definition exists exactly when nesting is on and dashboard actions remain to check (lines 207-210); it is `RecQry0`, over parent-folder scopes, binding the dashboard check, and `d` reads it |
| PermissionFilter.AddFolderPart | pkg/services/sqlstore/permissions/dashboard.go:227-261 | without folder actions nothing changes. Otherwise the text becomes the text so far, ` OR ` exactly when a dashboard branch precedes, then the folder branch `f`, and the values become the earlier ones followed by `f`'s. The earlier definitions are kept as a prefix; exactly one is added when nesting is on and folder actions remain (lines 248-251), over folder scopes and binding the folder check, and `f` reads it by its number |
| PermissionFilter.JoinFolderBranch | pkg/services/sqlstore/permissions/dashboard.go:228-261 | the joined text is the text so far, then ` OR ` exactly when a dashboard branch precedes, then the folder branch; the earlier values are bound before the branch's |
| PermissionFilter.BareSingleKind | pkg/services/sqlstore/permissions/dashboard.go:219 | with one kind of action and nothing left to check the predicate is exactly `(NOT dashboard.is_folder)` for dashboards or `(dashboard.is_folder)` for folders |
| PermissionFilter.ClosedText | pkg/services/sqlstore/permissions/dashboard.go:262 | writing `)` after the two parts gives `(dashboard-branch OR folder-branch)`: each branch where it belongs and ` OR ` between them when both are present |
| PermissionFilter.Close | pkg/services/sqlstore/permissions/dashboard.go:262 | the closing parenthesis is appended to the text; it changes neither parameters nor definitions and completes the parenthesized shape |
| PermissionFilter.Combine | pkg/services/sqlstore/permissions/dashboard.go:168-264 | the predicate is `(`, the dashboard branch `d` when dashboard actions exist, ` OR ` when both kinds do, the folder branch `f` when folder actions exist, and `)`; its values are `d`'s then `f`'s. Each present branch is well formed and binds its own check (dashboard twice inlined, once nested; folder once inlined, nothing nested), so each branch's placeholders carry that branch's values. Exactly one definition per branch that has actions left to check under nesting, dashboard's first: `RecQry0` over parent-folder scopes, then the folder's over folder scopes, and each nested branch reads its own definition by name. A branch with nothing left to check is exactly its bare row-kind test |
| PermissionFilter.LayoutParams | pkg/services/sqlstore/permissions/dashboard.go:168-264 | a predicate with that layout binds, inlined, the dashboard check, the dashboard check and the folder check, and no definition; nested, the dashboard check in the predicate and the dashboard check then the folder check in the definitions |
| PermissionFilter.DefinitionsCompose | pkg/services/sqlstore/permissions/dashboard.go:207-210 | the definition the dashboard branch adds, followed by the one the folder branch adds after it, are exactly the predicate's definitions, each present only when its branch created one |
| PermissionFilter.BuildClauses | pkg/services/sqlstore/permissions/dashboard.go:156-265 | no user, no grants or no grants for the organisation (line 157) give `(1 = 0)` with no parameters and no definitions. Otherwise the result has the layout of `Combine` for the actions the wildcards leave to check: the branches present exactly for the kinds with actions, each binding its own values, and exactly the definitions the nested branches create, in order, each owned by its branch and read by it |
| PermissionFilter.NewFilter | pkg/services/sqlstore/permissions/dashboard.go:104-147 | the actions are those of the decision table, at least one. Predicate and preamble are well formed and each one's placeholders carry its parameters in text order. Unknown grants deny everything with an empty preamble. A user with grants gets the layout of `Combine`, and the preamble is empty exactly when nesting is off or every action is granted through wildcards (line 272) |
| PermissionFilter.FilterFor | pkg/services/sqlstore/permissions/dashboard.go:140-144 | a filter made for any given action lists keeps them; its predicate and preamble are well formed, deny everything with an empty preamble when the grants are unknown, and otherwise have the layout of `Combine`; the preamble is empty exactly when no branch created a definition |
| PermissionFilter.Where | pkg/services/sqlstore/permissions/dashboard.go:152-154 | when the compiled predicate is well formed, the accessor returns a well-formed clause whose placeholders carry the filter's parameters in text order |

## Left out

- What the emitted SQL means at run time is not modelled: which rows match, the recursive definition's fixpoint over the folder hierarchy, and how `GROUP BY … HAVING COUNT(action) = ?` evaluates. The code only builds text. So which descendant folders a grant reaches through the recursive definition, and whether the predicate selects the same rows with and without nested folders on a one-level hierarchy, are not stated.
- Collaborators are parameters, not definitions: `UserRolesFilter` and `GetOrgRoles` are a `Clause` assumed well formed; `WildcardsFromPrefix` and `Wildcards.Contains` are `string -> bool` values; `Dialect.BooleanStr(false)` is a string; `FeatureToggles.IsEnabled` is a `bool`. The user's teams and id reach the SQL only through the role filter.
- Go mechanics are not modelled: `strings.Builder`, `bytes.Buffer`, `fmt.Sprintf` and `interface{}` boxing. Whitespace inside the SQL literals is normalised and is not byte-identical. No text is rendered to characters: `Placeholder` stands for the only `?`.
- `org.RoleType` is a string type in the Go code; the model closes it to the four basic roles `NoBasicRole`, `Viewer`, `Editor` and `Admin`. An unknown role string is not modelled; it would take the non-admin path with itself as its only acceptable role.
- The legacy default-permission subquery carries the SQL comment `-- include default permissions -->` (line 62). The model's literals are single-line, where a `--` comment would swallow the rest of the query, so the comment is left out of `DefaultAclJoin`. It does not change what the query selects.
- The query type is the closed `QueryType` datatype: any string other than the three named types is `OtherQuery`, which takes the code's final `else`.
- A nil `Permissions` map and a nil entry for the organisation are one case: the organisation has no key in `permissions`.
- The `Scratch` module models slice capacity only as far as reuse needs: a full slice grows into a new array of exactly the needed length, not Go's doubling.
- Wildcards.ActionsToCheck: its own contract states only the length bound. The filter's full characterisation is stated in `Wildcards.ActionsToCheckOrdered`, `Wildcards.ActionsToCheckMembers` and `Wildcards.ActionsToCheckCounts`. This keeps the proofs that use the function cheap.

=== FILE: dashboards.dfy ===
/**
 Names and levels the filters consume from the dashboards, accesscontrol and
 searchstore packages, and the decision table that turns a query type and a
 permission level into the actions a caller must hold.
 */
module Dashboards {

  /** dashboards.PermissionType values. */
  const PermissionView: int := 1
  const PermissionEdit: int := 2
  const PermissionAdmin: int := 4

  const ActionFoldersRead: string := "folders:read"
  const ActionDashboardsCreate: string := "dashboards:create"
  const ActionDashboardsRead: string := "dashboards:read"
  const ActionDashboardsWrite: string := "dashboards:write"
  const ActionAlertingRuleRead: string := "alert.rules:read"
  const ActionAlertingRuleCreate: string := "alert.rules:create"

  /**
   The search query types. `OtherQuery` stands for every query-type string that
   is none of the three named ones (the code's final `else`).
   */
  datatype QueryType = FolderQuery | DashboardQuery | AlertFolderQuery | OtherQuery

  /** The actions demanded on dashboard rows and on folder rows. */
  datatype RequiredActions = RequiredActions(dashboard: seq<string>, folder: seq<string>)

  predicate NeedEdit(level: int)
  {
    level > PermissionView
  }

  /** Actions that allow changing rather than only viewing. */
  predicate IsChangeAction(a: string)
  {
    a == ActionDashboardsWrite || a == ActionDashboardsCreate || a == ActionAlertingRuleCreate
  }

  predicate NoDuplicates(s: seq<string>)
  {
    forall i, j :: 0 <= i < j < |s| ==> s[i] != s[j]
  }

  /**
   The action derivation done when the fine-grained filter is created: a read
   action per kind of row the query returns, plus one write/create action
   when the level asks for more than viewing.
   */
  function DeriveActions(level: int, queryType: QueryType): (r: RequiredActions)
    ensures |r.dashboard| + |r.folder| >= 1
    ensures r.dashboard != [] ==> r.dashboard[0] == ActionDashboardsRead
    ensures r.folder != [] ==> r.folder[0] == ActionFoldersRead
    ensures NoDuplicates(r.dashboard) && NoDuplicates(r.folder)
    ensures NeedEdit(level) <==> exists a :: a in r.dashboard + r.folder && IsChangeAction(a)
  {
    var r := DeriveTable(level, queryType);
    assert NeedEdit(level) ==> IsChangeAction((r.dashboard + r.folder)[|r.dashboard + r.folder| - 1]);
    r
  }

  function DeriveTable(level: int, queryType: QueryType): RequiredActions
  {
    match queryType
    case FolderQuery =>
      RequiredActions([], [ActionFoldersRead] + (if NeedEdit(level) then [ActionDashboardsCreate] else []))
    case DashboardQuery =>
      RequiredActions([ActionDashboardsRead] + (if NeedEdit(level) then [ActionDashboardsWrite] else []), [])
    case AlertFolderQuery =>
      RequiredActions([], [ActionFoldersRead, ActionAlertingRuleRead]
                          + (if NeedEdit(level) then [ActionAlertingRuleCreate] else []))
    case OtherQuery =>
      RequiredActions([ActionDashboardsRead] + (if NeedEdit(level) then [ActionDashboardsWrite] else []),
                      [ActionFoldersRead] + (if NeedEdit(level) then [ActionDashboardsCreate] else []))
  }

  /** A mixed query asks, per kind of row, exactly what the single-kind queries ask. */
  lemma MixedIsUnionOfKinds(level: int)
    ensures DeriveActions(level, OtherQuery).dashboard == DeriveActions(level, DashboardQuery).dashboard
    ensures DeriveActions(level, OtherQuery).folder == DeriveActions(level, FolderQuery).folder
    ensures DeriveActions(level, DashboardQuery).folder == []
    ensures DeriveActions(level, FolderQuery).dashboard == []
    ensures DeriveActions(level, AlertFolderQuery).dashboard == []
  {
  }

  /**
   Only the comparison with the view level matters: every level above it asks
   for the same actions, and each non-empty view-level list is extended by
   exactly one action.
   */
  lemma LevelThreshold(level: int, queryType: QueryType)
    ensures DeriveActions(PermissionView, queryType).dashboard <= DeriveActions(level, queryType).dashboard
    ensures DeriveActions(PermissionView, queryType).folder <= DeriveActions(level, queryType).folder
    ensures |DeriveActions(level, queryType).dashboard|
      == |DeriveActions(PermissionView, queryType).dashboard|
         + (if NeedEdit(level) && DeriveActions(PermissionView, queryType).dashboard != [] then 1 else 0)
    ensures |DeriveActions(level, queryType).folder|
      == |DeriveActions(PermissionView, queryType).folder|
         + (if NeedEdit(level) && DeriveActions(PermissionView, queryType).folder != [] then 1 else 0)
    ensures NeedEdit(level) ==> DeriveActions(level, queryType) == DeriveActions(PermissionAdmin, queryType)
    ensures !NeedEdit(level) ==> DeriveActions(level, queryType) == DeriveActions(PermissionView, queryType)
  {
  }

  /** The decision table, row by row, for both values of the edit bit. */
  lemma ActionTable(level: int)
    ensures var e := if NeedEdit(level) then 1 else 0;
      && DeriveActions(level, FolderQuery)
           == RequiredActions([], [ActionFoldersRead, ActionDashboardsCreate][..1 + e])
      && DeriveActions(level, DashboardQuery)
           == RequiredActions([ActionDashboardsRead, ActionDashboardsWrite][..1 + e], [])
      && DeriveActions(level, AlertFolderQuery)
           == RequiredActions([], [ActionFoldersRead, ActionAlertingRuleRead, ActionAlertingRuleCreate][..2 + e])
      && DeriveActions(level, OtherQuery)
           == RequiredActions([ActionDashboardsRead, ActionDashboardsWrite][..1 + e],
                              [ActionFoldersRead, ActionDashboardsCreate][..1 + e])
  {
  }
}

=== FILE: filter.dfy ===
/**
 The fine-grained permission filter: compiles the signed-in user's per-action
 scope grants into a predicate over the `dashboard` table, plus the recursive
 definitions the predicate refers to when nested folders are enabled.
 */
module PermissionFilter {
  import opened Sql
  import opened Dashboards
  import opened Wildcards
  import opened RecursiveQueries

  datatype Option<T> = None | Some(value: T)

  /**
   The parts of the signed-in user the filter reads. `permissions` maps an
   organisation to its permission index; an organisation without an entry
   stands for both a nil permission map and a nil entry. The user id and teams
   reach the predicate only through the role filter (see `Environment`).
   */
  datatype SignedInUser = SignedInUser(
    orgId: int,
    userId: int,
    teams: seq<int>,
    permissions: map<int, PermissionIndex>)

  /**
   What the filter obtains from code outside this model: the containment tests
   of the dashboard and folder wildcards, the user's role filter (text and
   parameters selecting the applicable role ids) and the nested-folders toggle.
   */
  datatype Environment = Environment(
    dashboardWildcards: Wildcard,
    folderWildcards: Wildcard,
    userRoles: Clause,
    nestedFolders: bool)

  datatype Filter = Filter(
    user: Option<SignedInUser>,
    dashboardActions: seq<string>,
    folderActions: seq<string>,
    where: Clause,
    recQueries: seq<Clause>)

  /** The compiled predicate and the recursive definitions it refers to. */
  datatype Compiled = Compiled(where: Clause, recQueries: seq<Clause>)

  /** The always-false predicate used when the user's grants are unknown. */
  const DenyAll: Clause := Lit("(1 = 0)")

  const DashboardScopes: string :=
    "(dashboard.uid IN (SELECT substr(scope, 16) FROM permission WHERE scope LIKE 'dashboards:uid:%'"
  const ParentFolderScopes: string :=
    "(SELECT substr(scope, 13) FROM permission WHERE scope LIKE 'folders:uid:%' "
  const FolderScopes: string :=
    "(SELECT substr(scope, 13) FROM permission WHERE scope LIKE 'folders:uid:%'"
  /** Closes the dashboard's own scope check and, again, its folder's. */
  const DashboardClose: string := ") AND NOT dashboard.is_folder)"
  /** Opens the folder check of a dashboard; the selector or reference follows `IN `. */
  const ParentFolderIn: string := "(dashboard.folder_id IN (SELECT id FROM dashboard as d WHERE d.uid IN "
  /** The whole dashboard branch when every dashboard action is granted through a wildcard. */
  const DashboardTag: string := "NOT dashboard.is_folder"
  const FolderUidIn: string := "(dashboard.uid IN "
  const FolderClose: string := " AND dashboard.is_folder)"
  const FolderTag: string := "dashboard.is_folder"
  const HavingCount: string := ") GROUP BY role_id, scope HAVING COUNT(action) = "
  /** Selects every uid a recursive definition yields; the definition's name follows. */
  const UidsFrom: string := "(SELECT uid FROM "

  /** The user's grants in the current organisation, if they are known. */
  predicate HasPermissions(user: Option<SignedInUser>)
  {
    user.Some? && user.value.orgId in user.value.permissions
  }

  /** The segment the dashboard branch opens with: the bare row-kind test, or the scope check. */
  function DashboardOpening(toCheck: seq<string>): Segment
  {
    if toCheck == [] then Text(DashboardTag) else Text(DashboardScopes)
  }

  /** The segment the folder branch opens with: the bare row-kind test, or the scope check. */
  function FolderOpening(toCheck: seq<string>): Segment
  {
    if toCheck == [] then Text(FolderTag) else Text(FolderUidIn)
  }

  /** The segment the dashboard branch closes with: the bare row-kind test, or the scope check's close. */
  function DashboardEnding(toCheck: seq<string>): Segment
  {
    if toCheck == [] then Text(DashboardTag) else Text(DashboardClose)
  }

  /** The segment the folder branch closes with: the bare row-kind test, or the scope check's close. */
  function FolderEnding(toCheck: seq<string>): Segment
  {
    if toCheck == [] then Text(FolderTag) else Text(FolderClose)
  }

  /**
   `d` is a dashboard branch for `toCheck`: exactly the row-kind test when no
   action is left to check, otherwise a scope check from its opening to its
   closing segment.
   */
  predicate DashboardBranchText(d: seq<Segment>, toCheck: seq<string>)
  {
    && |d| >= 1 && d[0] == DashboardOpening(toCheck) && d[|d| - 1] == DashboardEnding(toCheck)
    && (toCheck == [] ==> d == [Text(DashboardTag)])
  }

  /** `f` is a folder branch for `toCheck`, in the same sense. */
  predicate FolderBranchText(f: seq<Segment>, toCheck: seq<string>)
  {
    && |f| >= 1 && f[0] == FolderOpening(toCheck) && f[|f| - 1] == FolderEnding(toCheck)
    && (toCheck == [] ==> f == [Text(FolderTag)])
  }

  /** ` OR ` stands at `k`, between a dashboard branch after `(` and a folder branch before `)`. */
  predicate JoinedAt(t: seq<Segment>, k: int, dashToCheck: seq<string>, folderToCheck: seq<string>)
  {
    && 2 <= k < |t| - 2 && t[k] == Text(" OR ")
    && DashboardBranchText(t[1..k], dashToCheck)
    && FolderBranchText(t[k + 1..|t| - 1], folderToCheck)
  }

  /** `(` and, when there are dashboard actions, the dashboard branch. */
  predicate OpenShape(a: seq<Segment>, hasDashboard: bool, dashToCheck: seq<string>)
  {
    && |a| >= 1 && a[0] == Text("(")
    && (hasDashboard ==> DashboardBranchText(a[1..], dashToCheck))
    && (!hasDashboard ==> a == [Text("(")])
  }

  /**
   `b` extends `a` when there are folder actions: by ` OR ` when a dashboard
   branch precedes, then by the folder branch; otherwise `b` is `a`.
   */
  predicate FolderShape(a: seq<Segment>, b: seq<Segment>, hasDashboard: bool, hasFolder: bool,
                        folderToCheck: seq<string>)
  {
    && |b| >= |a| && b[..|a|] == a
    && (!hasFolder ==> b == a)
    && (hasFolder && hasDashboard ==>
          |b| >= |a| + 2 && b[|a|] == Text(" OR ") && FolderBranchText(b[|a| + 1..], folderToCheck))
    && (hasFolder && !hasDashboard ==> |b| >= |a| + 1 && FolderBranchText(b[|a|..], folderToCheck))
  }

  /**
   `(dashboard-branch OR folder-branch)`: a branch is present exactly when its
   kind has actions, ` OR ` joins them only when both are, and the whole is
   parenthesized. With one kind only, everything between the parentheses is
   that kind's branch.
   */
  predicate ParenthesizedBranches(t: seq<Segment>, hasDashboard: bool, hasFolder: bool,
                                  dashToCheck: seq<string>, folderToCheck: seq<string>)
  {
    && |t| >= 2 && t[0] == Text("(") && t[|t| - 1] == Text(")")
    && (hasDashboard && !hasFolder ==> DashboardBranchText(t[1..|t| - 1], dashToCheck))
    && (!hasDashboard && hasFolder ==> FolderBranchText(t[1..|t| - 1], folderToCheck))
    && (!hasDashboard && !hasFolder ==> t == [Text("("), Text(")")])
    && (hasDashboard && hasFolder ==> exists k :: 0 <= k < |t| && JoinedAt(t, k, dashToCheck, folderToCheck))
  }

  /**
   A search of one kind whose actions are all granted through wildcards is
   exactly its row-kind test in parentheses: no branch of the other kind.
   */
  lemma BareSingleKind(t: seq<Segment>)
    ensures ParenthesizedBranches(t, true, false, [], []) ==> t == [Text("("), Text(DashboardTag), Text(")")]
    ensures ParenthesizedBranches(t, false, true, [], []) ==> t == [Text("("), Text(FolderTag), Text(")")]
  {
  }

  // Reference layouts: the values each part of the predicate must bind, in order.

  function ActionParams(actions: seq<string>): (r: seq<Param>)
    ensures |r| == |actions|
    ensures forall i :: 0 <= i < |actions| ==> r[i] == PAction(actions[i])
  {
    if actions == [] then [] else [PAction(actions[0])] + ActionParams(actions[1..])
  }

  /** What an action condition binds: every action, then their number when there are several. */
  function ActionValues(toCheck: seq<string>): seq<Param>
  {
    ActionParams(toCheck) + (if |toCheck| > 1 then [PInt(|toCheck|)] else [])
  }

  /** What one scope-membership check binds: the role filter's values, then the action condition's. */
  function SelectorParams(userRoles: Clause, toCheck: seq<string>): seq<Param>
  {
    userRoles.params + ActionValues(toCheck)
  }

  /** What a branch's scope check binds; nothing when no action is left to check. */
  function CheckParams(userRoles: Clause, toCheck: seq<string>): seq<Param>
  {
    if toCheck == [] then [] else SelectorParams(userRoles, toCheck)
  }

  // What each part of the compiled predicate holds.

  /** How many recursive definitions a branch adds: one exactly when nesting is on and actions remain. */
  function Created(toCheck: seq<string>, nested: bool): nat
  {
    if nested && toCheck != [] then 1 else 0
  }

  /** ` OR ` when both branches are present, nothing otherwise. */
  function OrBetween(both: bool): seq<Segment>
  {
    if both then [Text(" OR ")] else []
  }

  /**
   `d` is the dashboard branch for `toCheck`, well formed, binding the
   dashboard check once with nesting and twice without. With nesting its
   parent-folder test reads the definition numbered `index`; without, the
   parent-folder selector is inline.
   */
  predicate DashboardPart(d: Clause, toCheck: seq<string>, userRoles: Clause, nested: bool, index: nat)
  {
    var p := CheckParams(userRoles, toCheck);
    && WellFormed(d) && DashboardBranchText(d.text, toCheck)
    && d.params == (if nested then p else p + p)
    && (nested && toCheck != [] ==>
          |d.text| >= 2 && d.text[|d.text| - 2..] == RecQueryUids(RecQueryName(index)).text + [Text(DashboardClose)])
    && (!nested && toCheck != [] ==> Text(ParentFolderScopes) in d.text)
  }

  /**
   `f` is the folder branch for `toCheck`, well formed. With nesting it only
   reads the definition numbered `index` and binds nothing itself; without,
   it holds the folder-scope selector and binds the folder check.
   */
  predicate FolderPart(f: Clause, toCheck: seq<string>, userRoles: Clause, nested: bool, index: nat)
  {
    && WellFormed(f) && FolderBranchText(f.text, toCheck)
    && f.params == (if nested then [] else CheckParams(userRoles, toCheck))
    && (nested && toCheck != [] ==>
          f.text == [Text(FolderUidIn)] + RecQueryUids(RecQueryName(index)).text + [Text(FolderClose)])
    && (!nested && toCheck != [] ==> |f.text| >= 2 && f.text[1] == Text(FolderScopes))
  }

  /** `q` is the recursive definition of a selector opened by `head` for `toCheck`. */
  predicate DefinitionOf(q: Clause, head: string, userRoles: Clause, toCheck: seq<string>)
  {
    q.params == SelectorParams(userRoles, toCheck) && |q.text| >= 3 && q.text[2] == Text(head)
  }

  /**
   `after` is `before` plus the definitions one branch adds: none, or one for
   the selector opened by `head`.
   */
  predicate Extends(before: seq<Clause>, after: seq<Clause>, head: string, userRoles: Clause,
                    toCheck: seq<string>, nested: bool)
  {
    && |after| == |before| + Created(toCheck, nested)
    && after[..|before|] == before
    && (Created(toCheck, nested) == 0 ==> after == before)
    && (Created(toCheck, nested) == 1 ==> DefinitionOf(after[|before|], head, userRoles, toCheck))
  }

  /**
   The definitions of a compiled predicate: the dashboard branch's first,
   over parent-folder scopes, then the folder branch's, over folder scopes,
   each present exactly when its branch created one.
   */
  predicate Definitions(recs: seq<Clause>, dashToCheck: seq<string>, folderToCheck: seq<string>,
                        userRoles: Clause, nested: bool)
  {
    var n := Created(dashToCheck, nested);
    && |recs| == n + Created(folderToCheck, nested)
    && (n == 1 ==> DefinitionOf(recs[0], ParentFolderScopes, userRoles, dashToCheck))
    && (Created(folderToCheck, nested) == 1 ==> DefinitionOf(recs[n], FolderScopes, userRoles, folderToCheck))
  }

  /**
   `c` is `(d OR f)` with `d` and `f` the two branches, each present exactly
   when its kind has actions and binding its own values, the folder branch
   reading the definition after the dashboard branch's, and `c`'s definitions
   those the branches created, in order.
   */
  predicate Layout(c: Compiled, d: Clause, f: Clause, hasDashboard: bool, hasFolder: bool,
                   dashToCheck: seq<string>, folderToCheck: seq<string>, userRoles: Clause, nested: bool)
  {
    && c.where.text == [Text("(")] + d.text + OrBetween(hasDashboard && hasFolder) + f.text + [Text(")")]
    && c.where.params == d.params + f.params
    && (if hasDashboard then DashboardPart(d, dashToCheck, userRoles, nested, 0) else d == Empty)
    && (if hasFolder then FolderPart(f, folderToCheck, userRoles, nested, Created(dashToCheck, nested))
        else f == Empty)
    && Definitions(c.recQueries, dashToCheck, folderToCheck, userRoles, nested)
  }

  /**
   What a layout binds, in order: without nesting the dashboard check twice and
   the folder check once in the predicate; with nesting the dashboard check once
   in the predicate, and the two checks in the definitions.
   */
  lemma LayoutParams(c: Compiled, d: Clause, f: Clause, hasDashboard: bool, hasFolder: bool,
                     dashToCheck: seq<string>, folderToCheck: seq<string>, userRoles: Clause, nested: bool)
    requires !hasDashboard ==> dashToCheck == []
    requires !hasFolder ==> folderToCheck == []
    requires Layout(c, d, f, hasDashboard, hasFolder, dashToCheck, folderToCheck, userRoles, nested)
    ensures var dp := CheckParams(userRoles, dashToCheck);
            var fp := CheckParams(userRoles, folderToCheck);
            && c.where.params == (if nested then dp else dp + dp + fp)
            && AllParams(c.recQueries) == (if nested then dp + fp else [])
  {
    var dp := CheckParams(userRoles, dashToCheck);
    var fp := CheckParams(userRoles, folderToCheck);
    var recs := c.recQueries;
    assert d.params == (if nested then dp else dp + dp);
    assert f.params == (if nested then [] else fp);
    if !nested {
      assert recs == [];
    } else if dashToCheck == [] && folderToCheck == [] {
      assert recs == [];
    } else if dashToCheck == [] {
      assert recs == [recs[0]];
      assert AllParams(recs) == recs[0].params + AllParams(recs[1..]);
    } else if folderToCheck == [] {
      assert recs == [recs[0]];
      assert AllParams(recs) == recs[0].params + AllParams(recs[1..]);
    } else {
      assert AllParams(recs) == recs[0].params + AllParams(recs[1..]);
      assert AllParams(recs[1..]) == recs[1].params + AllParams(recs[2..]);
    }
  }

  /** The dashboard branch's definitions followed by the folder branch's are the predicate's definitions. */
  lemma DefinitionsCompose(a: seq<Clause>, b: seq<Clause>, dashToCheck: seq<string>, folderToCheck: seq<string>,
                           userRoles: Clause, nested: bool)
    requires Extends([], a, ParentFolderScopes, userRoles, dashToCheck, nested)
    requires Extends(a, b, FolderScopes, userRoles, folderToCheck, nested)
    ensures Definitions(b, dashToCheck, folderToCheck, userRoles, nested)
  {
    if Created(dashToCheck, nested) == 1 {
      assert b[0] == b[..|a|][0] == a[0];
    }
  }

  // Text builders.

  /** ` AND role_id IN(SELECT id FROM role <filter>) `. */
  function RolesFilter(userRoles: Clause): (r: Clause)
    ensures WellFormed(userRoles) ==> WellFormed(r)
    ensures r.params == userRoles.params
  {
    Lit(" AND role_id IN(SELECT id FROM role ").Then(userRoles).Then(Lit(") "))
  }

  /**
   The action condition of a scope-membership check. One action is compared
   directly; several are matched with `IN` and the scope must be granted, by one
   role, for as many distinct rows as there are actions, so that a scope granted
   for only some of the actions does not qualify.
   */
  function ActionCheck(toCheck: seq<string>): (r: Clause)
    requires |toCheck| >= 1
    ensures WellFormed(r)
    ensures r.params == ActionValues(toCheck)
    ensures Text(HavingCount) in r.text <==> |toCheck| > 1
  {
    if |toCheck| == 1 then
      var r := Lit(" AND action = ").Then(Bound(PAction(toCheck[0])));
      assert r.text == [Text(" AND action = "), Placeholder];
      assert |" AND action = "| != |HavingCount|;
      r
    else
      var list := ValueList(ActionParams(toCheck), ", ");
      var r := Lit(" AND action IN (").Then(list).Then(Lit(HavingCount)).Then(Bound(PInt(|toCheck|)));
      assert r.text[1 + |list.text|] == Text(HavingCount);
      r
  }

  /** The reference to a recursive definition that replaces an inlined selector. */
  function RecQueryUids(name: string): (r: Clause)
    ensures WellFormed(r) && r.params == []
    ensures |r.text| == 1 && r.text[0].Text?
    ensures var s := r.text[0].s; |s| == |UidsFrom| + |name| + 1 && s[|UidsFrom|..|s| - 1] == name
  {
    var s := UidsFrom + name + ")";
    assert s[|UidsFrom|..|s| - 1] == name;
    Lit(s)
  }

  /** A scope-membership subselect opened by `head`: the role restriction, then the action condition. */
  method ScopeSelector(head: string, userRoles: Clause, toCheck: seq<string>) returns (r: Clause)
    requires |toCheck| >= 1 && WellFormed(userRoles)
    ensures WellFormed(r)
    ensures r.params == SelectorParams(userRoles, toCheck)
    ensures |r.text| >= 1 && r.text[0] == Text(head)
  {
    var roles := RolesFilter(userRoles);
    r := Lit(head).Then(roles);
    assert r.params == userRoles.params;
    var check := ActionCheck(toCheck);
    r := r.Then(check);
  }

  /** The folder-uid subselect, closed so it can stand after `IN`. */
  method FolderSelector(head: string, userRoles: Clause, toCheck: seq<string>) returns (r: Clause)
    requires |toCheck| >= 1 && WellFormed(userRoles)
    ensures WellFormed(r)
    ensures r.params == SelectorParams(userRoles, toCheck)
    ensures |r.text| >= 2 && r.text[0] == Text(head) && r.text[|r.text| - 1] == Text(")")
  {
    r := ScopeSelector(head, userRoles, toCheck);
    r := r.Then(Lit(")"));
  }

  // The two branches and the compiler.

  /**
   Where a branch reads the granted folder uids from: with nested folders a new
   recursive definition, named after the number of definitions so far, that
   captures the selector and its parameters; otherwise the selector inline.
   */
  method FolderUidSet(selector: Clause, nested: bool, recQueries: seq<Clause>)
    returns (uids: Clause, recs: seq<Clause>)
    requires WellFormed(selector) && AllWellFormed(recQueries)
    ensures WellFormed(uids) && AllWellFormed(recs)
    ensures NamedInOrder(recQueries) ==> NamedInOrder(recs)
    ensures !nested ==> uids == selector && recs == recQueries
    ensures nested ==>
              var name := RecQueryName(|recQueries|);
              && |recs| == |recQueries| + 1
              && recs[..|recQueries|] == recQueries
              && uids == RecQueryUids(name) && uids.params == []
              && Defines(recs[|recQueries|], name)
              && recs[|recQueries|].params == selector.params
              && recs[|recQueries|] == Definition(name, selector)
  {
    if nested {
      var name := RecQueryName(|recQueries|);
      recs := AddRecQuery(recQueries, name, selector);
      uids := RecQueryUids(name);
    } else {
      uids, recs := selector, recQueries;
    }
  }

  /**
   The text of a dashboard scope check: the own-scope test and its close,
   ` OR `, the parent-folder test over `uids`, and the close again.
   */
  lemma DashboardCheckText(own: seq<Segment>, uids: seq<Segment>, t: seq<Segment>)
    requires |own| >= 1 && |uids| >= 1
    requires t == own + [Text(DashboardClose)] + [Text(" OR ")] + [Text(ParentFolderIn)] + uids + [Text(DashboardClose)]
    ensures |t| == |own| + |uids| + 4
    ensures |t| >= 2 && t[0] == own[0] && t[|t| - 1] == Text(DashboardClose)
    ensures t[|own| + 3] == uids[0]
    ensures |uids| == 1 ==> t[|t| - 2..] == uids + [Text(DashboardClose)]
  {
  }

  /** Joins a dashboard's own-scope test and its parent-folder uid set into one check. */
  method JoinDashboardCheck(own: Clause, uids: Clause) returns (where: Clause)
    requires WellFormed(own) && WellFormed(uids) && |own.text| >= 1 && |uids.text| >= 1
    ensures WellFormed(where) && where.params == own.params + uids.params
    ensures |where.text| == |own.text| + |uids.text| + 4
    ensures |where.text| >= 2 && where.text[0] == own.text[0] && where.text[|where.text| - 1] == Text(DashboardClose)
    ensures where.text[|own.text| + 3] == uids.text[0]
    ensures |uids.text| == 1 ==> where.text[|where.text| - 2..] == uids.text + [Text(DashboardClose)]
  {
    where := own.Then(Lit(DashboardClose)).Then(Lit(" OR ")).Then(Lit(ParentFolderIn)).Then(uids).Then(Lit(DashboardClose));
    DashboardCheckText(own.text, uids.text, where.text);
  }

  /**
   The dashboard's own uid among the granted dashboard scopes, or its folder's
   uid among the granted folder scopes, for a non-empty list of actions. With
   nested folders the folder check goes through a new recursive definition.
   */
  method DashboardScopeCheck(toCheck: seq<string>, userRoles: Clause, nested: bool, recQueries: seq<Clause>)
    returns (r: Compiled)
    requires |toCheck| >= 1 && WellFormed(userRoles) && AllWellFormed(recQueries)
    ensures WellFormed(r.where) && AllWellFormed(r.recQueries)
    ensures NamedInOrder(recQueries) ==> NamedInOrder(r.recQueries)
    ensures |r.where.text| >= 2 && r.where.text[0] == Text(DashboardScopes)
    ensures r.where.text[|r.where.text| - 1] == Text(DashboardClose)
    ensures !nested ==>
              var p := SelectorParams(userRoles, toCheck);
              r.where.params == p + p && r.recQueries == recQueries
    ensures nested ==>
              var name := RecQueryName(|recQueries|);
              && r.where.params == SelectorParams(userRoles, toCheck)
              && |r.recQueries| == |recQueries| + 1
              && r.recQueries[..|recQueries|] == recQueries
              && Defines(r.recQueries[|recQueries|], name)
              && r.recQueries[|recQueries|].params == SelectorParams(userRoles, toCheck)
              && r.where.text[|r.where.text| - 2..] == RecQueryUids(name).text + [Text(DashboardClose)]
    ensures !nested ==> Text(ParentFolderScopes) in r.where.text
    ensures nested ==> |r.recQueries[|recQueries|].text| >= 3 && r.recQueries[|recQueries|].text[2] == Text(ParentFolderScopes)
  {
    ghost var p := SelectorParams(userRoles, toCheck);
    var own := ScopeSelector(DashboardScopes, userRoles, toCheck);
    var selector := FolderSelector(ParentFolderScopes, userRoles, toCheck);
    var uids, recs := FolderUidSet(selector, nested, recQueries);
    var where := JoinDashboardCheck(own, uids);
    if nested {
      assert where.params == p;
      assert recs[|recQueries|].text[2] == selector.text[0];
    } else {
      assert where.params == p + p;
      assert recs == recQueries;
      assert where.text[|own.text| + 3] == Text(ParentFolderScopes);
    }
    r := Compiled(where, recs);
  }

  /**
   The dashboard branch: the dashboard scope check, or only the dashboard
   condition when every dashboard action is granted through a wildcard.
   */
  method DashboardBranch(toCheck: seq<string>, userRoles: Clause, nested: bool, recQueries: seq<Clause>)
    returns (r: Compiled)
    requires WellFormed(userRoles) && AllWellFormed(recQueries)
    ensures WellFormed(r.where) && AllWellFormed(r.recQueries)
    ensures NamedInOrder(recQueries) ==> NamedInOrder(r.recQueries)
    ensures toCheck == [] ==> r.where == Lit(DashboardTag)
    ensures toCheck != [] ==> |r.where.text| >= 1 && r.where.text[0] == Text(DashboardScopes)
    ensures DashboardPart(r.where, toCheck, userRoles, nested, |recQueries|)
    ensures Extends(recQueries, r.recQueries, ParentFolderScopes, userRoles, toCheck, nested)
  {
    if toCheck == [] {
      return Compiled(Lit(DashboardTag), recQueries);
    }
    r := DashboardScopeCheck(toCheck, userRoles, nested, recQueries);
  }

  /**
   The folder uid among the granted folder scopes for a non-empty list of
   actions, through a new recursive definition when nested folders are enabled
   so that a grant on a folder reaches its descendants.
   */
  method FolderScopeCheck(toCheck: seq<string>, userRoles: Clause, nested: bool, recQueries: seq<Clause>)
    returns (r: Compiled)
    requires |toCheck| >= 1 && WellFormed(userRoles) && AllWellFormed(recQueries)
    ensures WellFormed(r.where) && AllWellFormed(r.recQueries)
    ensures NamedInOrder(recQueries) ==> NamedInOrder(r.recQueries)
    ensures |r.where.text| >= 1 && r.where.text[0] == Text(FolderUidIn)
    ensures r.where.text[|r.where.text| - 1] == Text(FolderClose)
    ensures !nested ==>
              r.where.params == SelectorParams(userRoles, toCheck) && r.recQueries == recQueries
    ensures nested ==>
              var name := RecQueryName(|recQueries|);
              && r.where.params == []
              && |r.recQueries| == |recQueries| + 1
              && r.recQueries[..|recQueries|] == recQueries
              && Defines(r.recQueries[|recQueries|], name)
              && r.recQueries[|recQueries|].params == SelectorParams(userRoles, toCheck)
              && r.where.text == [Text(FolderUidIn)] + RecQueryUids(name).text + [Text(FolderClose)]
    ensures !nested ==> |r.where.text| >= 2 && r.where.text[1] == Text(FolderScopes)
    ensures nested ==> |r.recQueries[|recQueries|].text| >= 3 && r.recQueries[|recQueries|].text[2] == Text(FolderScopes)
  {
    ghost var p := SelectorParams(userRoles, toCheck);
    var selector := FolderSelector(FolderScopes, userRoles, toCheck);
    assert selector.params == p;
    var uids, recs := FolderUidSet(selector, nested, recQueries);
    var where := Lit(FolderUidIn).Then(uids).Then(Lit(FolderClose));
    assert where.params == uids.params;
    if nested {
      assert where.params == [];
      assert recs[|recQueries|].text[2] == selector.text[0];
    } else {
      assert where.params == p;
      assert recs == recQueries;
      assert where.text[1] == selector.text[0];
    }
    r := Compiled(where, recs);
  }

  /**
   The folder branch: the folder scope check, or only the folder condition when
   every folder action is granted through a wildcard.
   */
  method FolderBranch(toCheck: seq<string>, userRoles: Clause, nested: bool, recQueries: seq<Clause>)
    returns (r: Compiled)
    requires WellFormed(userRoles) && AllWellFormed(recQueries)
    ensures WellFormed(r.where) && AllWellFormed(r.recQueries)
    ensures NamedInOrder(recQueries) ==> NamedInOrder(r.recQueries)
    ensures toCheck == [] ==> r.where == Lit(FolderTag)
    ensures toCheck != [] ==> |r.where.text| >= 1 && r.where.text[0] == Text(FolderUidIn)
    ensures FolderPart(r.where, toCheck, userRoles, nested, |recQueries|)
    ensures Extends(recQueries, r.recQueries, FolderScopes, userRoles, toCheck, nested)
  {
    if toCheck == [] {
      return Compiled(Lit(FolderTag), recQueries);
    }
    r := FolderScopeCheck(toCheck, userRoles, nested, recQueries);
  }

  /** No granted scope of `action` is covered by either wildcard set. */
  lemma {:induction false} NeedsCheckOfTwo(permissions: PermissionIndex, w1: Wildcard, w2: Wildcard, action: string)
    ensures NeedsCheck(permissions, [w1, w2], action)
            <==> forall s :: s in Granted(permissions, action) ==> !w1(s) && !w2(s)
  {
    var scopes := Granted(permissions, action);
    if !NeedsCheck(permissions, [w1, w2], action) {
      var i, j :| 0 <= i < |scopes| && 0 <= j < 2 && [w1, w2][j](scopes[i]);
      assert scopes[i] in scopes;
    } else {
      forall s | s in scopes ensures !w1(s) && !w2(s) {
        var i :| 0 <= i < |scopes| && scopes[i] == s;
        assert [w1, w2][0] == w1 && [w1, w2][1] == w2;
      }
    }
  }

  /** No granted scope of `action` is covered by the one wildcard set. */
  lemma {:induction false} NeedsCheckOfOne(permissions: PermissionIndex, w: Wildcard, action: string)
    ensures NeedsCheck(permissions, [w], action) <==> forall s :: s in Granted(permissions, action) ==> !w(s)
  {
    var scopes := Granted(permissions, action);
    if !NeedsCheck(permissions, [w], action) {
      var i, j :| 0 <= i < |scopes| && 0 <= j < 1 && [w][j](scopes[i]);
      assert scopes[i] in scopes;
    } else {
      forall s | s in scopes ensures !w(s) {
        var i :| 0 <= i < |scopes| && scopes[i] == s;
        assert [w][0] == w;
      }
    }
  }

  /** The dashboard actions left to check (line 174). */
  function DashboardToCheck(dashboardActions: seq<string>, permissions: PermissionIndex, env: Environment)
    : seq<string>
  {
    ActionsToCheck(dashboardActions, permissions, [env.dashboardWildcards, env.folderWildcards])
  }

  /** The folder actions left to check (line 232); dashboard wildcards do not count. */
  function FolderToCheck(folderActions: seq<string>, permissions: PermissionIndex, env: Environment)
    : seq<string>
  {
    ActionsToCheck(folderActions, permissions, [env.folderWildcards])
  }

  /**
   A dashboard action stays to be checked exactly when none of its granted
   scopes is covered by a dashboard wildcard or a folder wildcard.
   */
  lemma DashboardToCheckMembers(dashboardActions: seq<string>, permissions: PermissionIndex, env: Environment)
    ensures forall a :: a in DashboardToCheck(dashboardActions, permissions, env) <==>
              (a in dashboardActions &&
               forall s :: s in Granted(permissions, a) ==> !env.dashboardWildcards(s) && !env.folderWildcards(s))
  {
    var wildcards := [env.dashboardWildcards, env.folderWildcards];
    ActionsToCheckMembers(dashboardActions, permissions, wildcards);
    forall a ensures NeedsCheck(permissions, wildcards, a)
      <==> forall s :: s in Granted(permissions, a) ==> !env.dashboardWildcards(s) && !env.folderWildcards(s)
    {
      NeedsCheckOfTwo(permissions, env.dashboardWildcards, env.folderWildcards, a);
    }
  }

  /**
   A folder action stays to be checked exactly when none of its granted scopes
   is covered by a folder wildcard.
   */
  lemma FolderToCheckMembers(folderActions: seq<string>, permissions: PermissionIndex, env: Environment)
    ensures forall a :: a in FolderToCheck(folderActions, permissions, env) <==>
              (a in folderActions && forall s :: s in Granted(permissions, a) ==> !env.folderWildcards(s))
  {
    var wildcards := [env.folderWildcards];
    ActionsToCheckMembers(folderActions, permissions, wildcards);
    forall a ensures NeedsCheck(permissions, wildcards, a)
      <==> forall s :: s in Granted(permissions, a) ==> !env.folderWildcards(s)
    {
      NeedsCheckOfOne(permissions, env.folderWildcards, a);
    }
  }

  /** The values the dashboard branch's scope check binds for `user`. */
  function DashboardParams(user: Option<SignedInUser>, dashboardActions: seq<string>, env: Environment)
    : seq<Param>
    requires HasPermissions(user)
  {
    CheckParams(env.userRoles,
                DashboardToCheck(dashboardActions, user.value.permissions[user.value.orgId], env))
  }

  /** The values the folder branch's scope check binds for `user`. */
  function FolderParams(user: Option<SignedInUser>, folderActions: seq<string>, env: Environment)
    : seq<Param>
    requires HasPermissions(user)
  {
    CheckParams(env.userRoles,
                FolderToCheck(folderActions, user.value.permissions[user.value.orgId], env))
  }

  /** The text after opening the parenthesis before the dashboard branch `branch`. */
  lemma OpenedText(branch: seq<Segment>, t: seq<Segment>, dashToCheck: seq<string>)
    requires DashboardBranchText(branch, dashToCheck)
    requires t == [Text("(")] + branch
    ensures OpenShape(t, true, dashToCheck)
    ensures dashToCheck == [] ==> t == [Text("("), Text(DashboardTag)]
  {
  }

  /**
   `(` and, when there are dashboard actions, the dashboard branch `d`, whose
   definition, if it creates one, comes first.
   */
  method OpenDashboardPart(hasDashboard: bool, dashToCheck: seq<string>, userRoles: Clause, nested: bool)
    returns (r: Compiled, ghost d: Clause)
    requires WellFormed(userRoles)
    requires !hasDashboard ==> dashToCheck == []
    ensures WellFormed(r.where) && AllWellFormed(r.recQueries)
    ensures |r.recQueries| <= 1 && (!nested ==> r.recQueries == []) && NamedInOrder(r.recQueries)
    ensures |r.where.text| >= 1 && r.where.text[0] == Text("(")
    ensures var dp := CheckParams(userRoles, dashToCheck);
            && r.where.params == (if nested then dp else dp + dp)
            && AllParams(r.recQueries) == (if nested then dp else [])
    ensures hasDashboard && dashToCheck == [] ==> r.where.text == [Text("("), Text(DashboardTag)]
    ensures OpenShape(r.where.text, hasDashboard, dashToCheck)
    ensures r.where.text == [Text("(")] + d.text && r.where.params == d.params
    ensures if hasDashboard then DashboardPart(d, dashToCheck, userRoles, nested, 0) else d == Empty
    ensures Extends([], r.recQueries, ParentFolderScopes, userRoles, dashToCheck, nested)
  {
    if !hasDashboard {
      return Compiled(Lit("("), []), Empty;
    }
    var b := DashboardBranch(dashToCheck, userRoles, nested, []);
    if nested && dashToCheck != [] {
      AllParamsExtended([], b.recQueries);
    }
    r, d := Compiled(Lit("(").Then(b.where), b.recQueries), b.where;
    OpenedText(b.where.text, r.where.text, dashToCheck);
  }

  /** The text after appending the folder branch `branch` to `prefix`, with ` OR ` between them when the dashboard branch is there. */
  lemma FolderJoinText(prefix: seq<Segment>, branch: seq<Segment>, t: seq<Segment>, hasDashboard: bool,
                       folderToCheck: seq<string>)
    requires FolderBranchText(branch, folderToCheck)
    requires t == (if hasDashboard then prefix + [Text(" OR ")] else prefix) + branch
    ensures FolderShape(prefix, t, hasDashboard, true, folderToCheck)
    ensures folderToCheck == [] ==> t[|t| - 1] == Text(FolderTag)
  {
  }

  /** Appends the folder branch to the clause built so far. */
  method JoinFolderBranch(prefix: Clause, hasDashboard: bool, branch: Clause, folderToCheck: seq<string>)
    returns (where: Clause)
    requires WellFormed(prefix) && WellFormed(branch) && FolderBranchText(branch.text, folderToCheck)
    ensures WellFormed(where) && where.params == prefix.params + branch.params
    ensures where.text == prefix.text + OrBetween(hasDashboard) + branch.text
    ensures FolderShape(prefix.text, where.text, hasDashboard, true, folderToCheck)
    ensures folderToCheck == [] ==> where.text[|where.text| - 1] == Text(FolderTag)
  {
    if hasDashboard {
      var joined := prefix.Then(Lit(" OR "));
      assert joined.params == prefix.params;
      where := joined.Then(branch);
    } else {
      where := prefix.Then(branch);
    }
    FolderJoinText(prefix.text, branch.text, where.text, hasDashboard, folderToCheck);
  }

  /** What appending a folder branch that binds `fParams` and extends `prevRecs` to `recs` adds to the parameters. */
  lemma FolderAppendParams(prevParams: seq<Param>, fParams: seq<Param>, params: seq<Param>,
                           prevRecs: seq<Clause>, recs: seq<Clause>,
                           folderToCheck: seq<string>, userRoles: Clause, nested: bool)
    requires fParams == (if nested then [] else CheckParams(userRoles, folderToCheck))
    requires params == prevParams + fParams
    requires Extends(prevRecs, recs, FolderScopes, userRoles, folderToCheck, nested)
    ensures var fp := CheckParams(userRoles, folderToCheck);
            && params == (if nested then prevParams else prevParams + fp)
            && AllParams(recs) == (if nested then AllParams(prevRecs) + fp else AllParams(prevRecs))
  {
    if nested {
      assert params == prevParams;
      if folderToCheck != [] {
        AllParamsExtended(prevRecs, recs);
      }
    }
  }

  /**
   ` OR ` after a dashboard branch and, when there are folder actions, the
   folder branch `f`, whose definition, if it creates one, follows those of
   `prev`.
   */
  method AddFolderPart(prev: Compiled, hasDashboard: bool, hasFolder: bool, folderToCheck: seq<string>,
                       userRoles: Clause, nested: bool)
    returns (r: Compiled, ghost f: Clause)
    requires WellFormed(userRoles) && WellFormed(prev.where) && AllWellFormed(prev.recQueries)
    requires |prev.recQueries| <= 1 && (!nested ==> prev.recQueries == []) && NamedInOrder(prev.recQueries)
    requires !hasFolder ==> folderToCheck == []
    ensures WellFormed(r.where) && AllWellFormed(r.recQueries)
    ensures |r.recQueries| <= MaximumRecursiveQueries
    ensures !nested ==> r.recQueries == []
    ensures NamedInOrder(r.recQueries)
    ensures |r.where.text| >= |prev.where.text| && r.where.text[..|prev.where.text|] == prev.where.text
    ensures var fp := CheckParams(userRoles, folderToCheck);
            && r.where.params == (if nested then prev.where.params else prev.where.params + fp)
            && AllParams(r.recQueries) == (if nested then AllParams(prev.recQueries) + fp else AllParams(prev.recQueries))
    ensures hasFolder && folderToCheck == [] ==>
              |r.where.text| >= 1 && r.where.text[|r.where.text| - 1] == Text(FolderTag)
    ensures !hasFolder ==> r == prev
    ensures FolderShape(prev.where.text, r.where.text, hasDashboard, hasFolder, folderToCheck)
    ensures r.where.text == prev.where.text + OrBetween(hasDashboard && hasFolder) + f.text
    ensures r.where.params == prev.where.params + f.params
    ensures if hasFolder then FolderPart(f, folderToCheck, userRoles, nested, |prev.recQueries|) else f == Empty
    ensures Extends(prev.recQueries, r.recQueries, FolderScopes, userRoles, folderToCheck, nested)
  {
    if !hasFolder {
      return prev, Empty;
    }
    var b := FolderBranch(folderToCheck, userRoles, nested, prev.recQueries);
    var where := JoinFolderBranch(prev.where, hasDashboard, b.where, folderToCheck);
    r, f := Compiled(where, b.recQueries), b.where;
    FolderAppendParams(prev.where.params, f.params, r.where.params, prev.recQueries, r.recQueries,
                       folderToCheck, userRoles, nested);
  }

  /** Where the parts stand once the closing parenthesis follows the branches. */
  lemma ClosedText(a: seq<Segment>, b: seq<Segment>, t: seq<Segment>, hasDashboard: bool, hasFolder: bool,
                   dashToCheck: seq<string>, folderToCheck: seq<string>)
    requires OpenShape(a, hasDashboard, dashToCheck)
    requires FolderShape(a, b, hasDashboard, hasFolder, folderToCheck)
    requires t == b + [Text(")")]
    ensures ParenthesizedBranches(t, hasDashboard, hasFolder, dashToCheck, folderToCheck)
    ensures hasDashboard && hasFolder ==> JoinedAt(t, |a|, dashToCheck, folderToCheck)
  {
    assert t[0] == b[0] == b[..|a|][0];
    assert t[1..|t| - 1] == b[1..];
    if hasDashboard && hasFolder {
      assert t[1..|a|] == a[1..];
      assert t[|a| + 1..|t| - 1] == b[|a| + 1..];
      assert JoinedAt(t, |a|, dashToCheck, folderToCheck);
    } else if hasDashboard {
      assert b[1..] == a[1..];
    }
  }

  /**
   The closing parenthesis after the text `b` that the folder part wrote after
   the opening `a`: the whole is then `(dashboard-branch OR folder-branch)`.
   */
  method Close(a: seq<Segment>, b: Compiled, hasDashboard: bool, hasFolder: bool,
               dashToCheck: seq<string>, folderToCheck: seq<string>)
    returns (r: Compiled)
    requires OpenShape(a, hasDashboard, dashToCheck)
    requires FolderShape(a, b.where.text, hasDashboard, hasFolder, folderToCheck)
    ensures r.recQueries == b.recQueries && r.where.params == b.where.params
    ensures r.where.text == b.where.text + [Text(")")]
    ensures WellFormed(b.where) ==> WellFormed(r.where)
    ensures |r.where.text| >= 1 && r.where.text[0] == Text("(")
    ensures ParenthesizedBranches(r.where.text, hasDashboard, hasFolder, dashToCheck, folderToCheck)
    ensures hasDashboard && hasFolder ==> JoinedAt(r.where.text, |a|, dashToCheck, folderToCheck)
  {
    r := Compiled(b.where.Then(Lit(")")), b.recQueries);
    ClosedText(a, b.where.text, r.where.text, hasDashboard, hasFolder, dashToCheck, folderToCheck);
  }

  /**
   `(dashboard-branch OR folder-branch)`, each branch present only when its
   action list is non-empty, for the actions that remain to check. Without
   nested folders the dashboard check is bound twice (own scopes, then folder
   scopes) and the folder check once; with nested folders the folder-scope
   checks move into the recursive definitions, in creation order. `d` and `f`
   are the two branches (empty when absent); each binds its own values.
   */
  method Combine(hasDashboard: bool, hasFolder: bool, dashToCheck: seq<string>, folderToCheck: seq<string>,
                 userRoles: Clause, nested: bool)
    returns (r: Compiled, ghost d: Clause, ghost f: Clause)
    requires WellFormed(userRoles)
    requires !hasDashboard ==> dashToCheck == []
    requires !hasFolder ==> folderToCheck == []
    ensures WellFormed(r.where) && AllWellFormed(r.recQueries)
    ensures |r.recQueries| <= MaximumRecursiveQueries
    ensures !nested ==> r.recQueries == []
    ensures NamedInOrder(r.recQueries)
    ensures |r.where.text| >= 1 && r.where.text[0] == Text("(")
    ensures var dp := CheckParams(userRoles, dashToCheck);
            var fp := CheckParams(userRoles, folderToCheck);
            && r.where.params == (if nested then dp else dp + dp + fp)
            && AllParams(r.recQueries) == (if nested then dp + fp else [])
    ensures ParenthesizedBranches(r.where.text, hasDashboard, hasFolder, dashToCheck, folderToCheck)
    ensures Layout(r, d, f, hasDashboard, hasFolder, dashToCheck, folderToCheck, userRoles, nested)
  {
    var a;
    a, d := OpenDashboardPart(hasDashboard, dashToCheck, userRoles, nested);
    var b;
    b, f := AddFolderPart(a, hasDashboard, hasFolder, folderToCheck, userRoles, nested);
    r := Close(a.where.text, b, hasDashboard, hasFolder, dashToCheck, folderToCheck);
    DefinitionsCompose(a.recQueries, b.recQueries, dashToCheck, folderToCheck, userRoles, nested);
    LayoutParams(r, d, f, hasDashboard, hasFolder, dashToCheck, folderToCheck, userRoles, nested);
  }

  /**
   `user` has grants, and `c` has the layout of `Combine`, with branches `d`
   and `f`, for the actions the user's wildcards leave to check.
   */
  predicate CompiledLayout(c: Compiled, d: Clause, f: Clause, user: Option<SignedInUser>,
                           dashboardActions: seq<string>, folderActions: seq<string>, env: Environment)
  {
    && HasPermissions(user)
    && var permissions := user.value.permissions[user.value.orgId];
       Layout(c, d, f, dashboardActions != [], folderActions != [],
              DashboardToCheck(dashboardActions, permissions, env), FolderToCheck(folderActions, permissions, env),
              env.userRoles, env.nestedFolders)
  }

  /**
   The predicate compiler: deny everything when the user's grants are unknown,
   otherwise the combination of the two branches for the actions the user's
   wildcards leave to check. `d` and `f` are the two branches, as for `Combine`.
   */
  method BuildClauses(
    user: Option<SignedInUser>, dashboardActions: seq<string>, folderActions: seq<string>, env: Environment)
    returns (r: Compiled, ghost d: Clause, ghost f: Clause)
    requires WellFormed(env.userRoles)
    ensures !HasPermissions(user) ==> r == Compiled(DenyAll, [])
    ensures WellFormed(r.where) && AllWellFormed(r.recQueries)
    ensures |r.recQueries| <= MaximumRecursiveQueries
    ensures !env.nestedFolders ==> r.recQueries == []
    ensures NamedInOrder(r.recQueries)
    ensures |r.where.text| >= 1 && r.where.text[0] == (if HasPermissions(user) then Text("(") else Text("(1 = 0)"))
    ensures HasPermissions(user) ==>
              var dp := DashboardParams(user, dashboardActions, env);
              var fp := FolderParams(user, folderActions, env);
              && r.where.params == (if env.nestedFolders then dp else dp + dp + fp)
              && With(r.recQueries).params == (if env.nestedFolders then dp + fp else [])
    ensures HasPermissions(user) ==>
              ParenthesizedBranches(r.where.text, dashboardActions != [], folderActions != [],
                                    DashboardToCheck(dashboardActions, user.value.permissions[user.value.orgId], env),
                                    FolderToCheck(folderActions, user.value.permissions[user.value.orgId], env))
    ensures HasPermissions(user) ==> CompiledLayout(r, d, f, user, dashboardActions, folderActions, env)
  {
    if !HasPermissions(user) {
      return Compiled(DenyAll, []), Empty, Empty;
    }
    var permissions := user.value.permissions[user.value.orgId];
    var dashToCheck := DashboardToCheck(dashboardActions, permissions, env);
    var folderToCheck := FolderToCheck(folderActions, permissions, env);
    ghost var dp := CheckParams(env.userRoles, dashToCheck);
    ghost var fp := CheckParams(env.userRoles, folderToCheck);
    assert dp == DashboardParams(user, dashboardActions, env);
    assert fp == FolderParams(user, folderActions, env);
    r, d, f := Combine(|dashboardActions| > 0, |folderActions| > 0, dashToCheck, folderToCheck,
                       env.userRoles, env.nestedFolders);
  }

  /** The filter for given action lists: the compiled predicate and preamble, as the accessors return them. */
  method FilterFor(user: Option<SignedInUser>, dashboardActions: seq<string>, folderActions: seq<string>,
                   env: Environment)
    returns (f: Filter, ghost dashboardBranch: Clause, ghost folderBranch: Clause)
    requires WellFormed(env.userRoles)
    ensures f.user == user && f.dashboardActions == dashboardActions && f.folderActions == folderActions
    ensures WellFormed(Where(f)) && WellFormed(WithClause(f))
    ensures !HasPermissions(user) ==> Where(f) == DenyAll && WithClause(f) == Empty
    ensures !env.nestedFolders ==> WithClause(f) == Empty
    ensures HasPermissions(user) ==>
              var dp := DashboardParams(user, dashboardActions, env);
              var fp := FolderParams(user, folderActions, env);
              && Where(f).params == (if env.nestedFolders then dp else dp + dp + fp)
              && WithClause(f).params == (if env.nestedFolders then dp + fp else [])
    ensures HasPermissions(user) ==>
              ParenthesizedBranches(Where(f).text, dashboardActions != [], folderActions != [],
                                    DashboardToCheck(dashboardActions, user.value.permissions[user.value.orgId], env),
                                    FolderToCheck(folderActions, user.value.permissions[user.value.orgId], env))
    ensures BoundValues(Bind(Where(f).text, Where(f).params)) == Where(f).params
    ensures BoundValues(Bind(WithClause(f).text, WithClause(f).params)) == WithClause(f).params
    ensures HasPermissions(user) ==>
              CompiledLayout(Compiled(Where(f), f.recQueries), dashboardBranch, folderBranch,
                             user, dashboardActions, folderActions, env)
    ensures WithClause(f) == Empty <==> f.recQueries == []
  {
    var c;
    c, dashboardBranch, folderBranch := BuildClauses(user, dashboardActions, folderActions, env);
    f := Filter(user, dashboardActions, folderActions, c.where, c.recQueries);
    assert Compiled(Where(f), f.recQueries) == c;
    BindPositional(Where(f));
    BindPositional(WithClause(f));
  }

  /**
   The filter as created for a permission level and query type: the required
   actions from the decision table, then the compiled predicate.
   */
  method NewFilter(user: Option<SignedInUser>, level: int, queryType: QueryType, env: Environment)
    returns (f: Filter, ghost dashboardBranch: Clause, ghost folderBranch: Clause)
    requires WellFormed(env.userRoles)
    ensures f.user == user
    ensures f.dashboardActions == DeriveActions(level, queryType).dashboard
    ensures f.folderActions == DeriveActions(level, queryType).folder
    ensures |f.dashboardActions| + |f.folderActions| >= 1
    ensures WellFormed(Where(f)) && WellFormed(WithClause(f))
    ensures !HasPermissions(user) ==> Where(f) == DenyAll && WithClause(f) == Empty
    ensures !env.nestedFolders ==> WithClause(f) == Empty
    ensures HasPermissions(user) ==>
              var actions := DeriveActions(level, queryType);
              var dp := DashboardParams(user, actions.dashboard, env);
              var fp := FolderParams(user, actions.folder, env);
              && Where(f).params == (if env.nestedFolders then dp else dp + dp + fp)
              && WithClause(f).params == (if env.nestedFolders then dp + fp else [])
    ensures HasPermissions(user) ==>
              var actions := DeriveActions(level, queryType);
              var permissions := user.value.permissions[user.value.orgId];
              ParenthesizedBranches(Where(f).text, actions.dashboard != [], actions.folder != [],
                                    DashboardToCheck(actions.dashboard, permissions, env),
                                    FolderToCheck(actions.folder, permissions, env))
    ensures BoundValues(Bind(Where(f).text, Where(f).params)) == Where(f).params
    ensures BoundValues(Bind(WithClause(f).text, WithClause(f).params)) == WithClause(f).params
    ensures HasPermissions(user) ==>
              var actions := DeriveActions(level, queryType);
              CompiledLayout(Compiled(Where(f), f.recQueries), dashboardBranch, folderBranch,
                             user, actions.dashboard, actions.folder, env)
    ensures WithClause(f) == Empty <==> f.recQueries == []
  {
    f, dashboardBranch, folderBranch :=
      FilterFor(user, DeriveActions(level, queryType).dashboard, DeriveActions(level, queryType).folder, env);
  }

  /**
   The predicate and its parameters, returned together: when they are well
   formed, the n-th placeholder of the text carries the n-th parameter.
   */
  function Where(f: Filter): (r: Clause)
    ensures WellFormed(f.where) ==> WellFormed(r) && BoundValues(Bind(r.text, r.params)) == f.where.params
  {
    if WellFormed(f.where) then BindPositional(f.where); f.where else f.where
  }

  /** The recursive-definition preamble and its parameters. */
  function WithClause(f: Filter): Clause
  {
    With(f.recQueries)
  }
}

=== FILE: legacy.dfy ===
/**
 The legacy role-based filter: a predicate built from the basic organisation
 role and the dashboard ACL table only, used when fine-grained permissions are
 not in play.
 */
module LegacyFilter {
  import opened Org
  import opened Sql

  datatype DashboardPermissionFilter = DashboardPermissionFilter(
    orgRole: Role,
    falseLiteral: string,   // what the SQL dialect renders for boolean false
    userId: int,
    orgId: int,
    permissionLevel: int)

  const UnionHead: string := "( dashboard.id IN ( SELECT distinct DashboardId from ("
  const ExplicitAclJoin: string :=
    " SELECT d.id AS DashboardId FROM dashboard AS d LEFT JOIN dashboard_acl AS da ON da.dashboard_id = d.id OR da.dashboard_id = d.folder_id WHERE d.org_id = "
  const TeamMembership: string :=
    " OR da.team_id IN (SELECT team_id from team_member AS tm WHERE tm.user_id = "
  const DefaultAclJoin: string :=
    " SELECT d.id AS DashboardId FROM dashboard AS d LEFT JOIN dashboard AS folder on folder.id = d.folder_id LEFT JOIN dashboard_acl AS da ON ( da.org_id = -1 AND ( (folder.id IS NOT NULL AND folder.has_acl = "

  /** The roles whose ACL entries satisfy a check made for `role`. */
  function OkRoles(role: Role): (r: seq<Role>)
    ensures |r| == (if role == Editor then 2 else 1) && r[0] == role
    ensures Viewer in r <==> role == Viewer || role == Editor
    ensures Admin !in r || role == Admin
  {
    if role == Editor then [Editor, Viewer] else [role]
  }

  /** The acceptable roles as bound values, one per role. */
  function RoleParams(roles: seq<Role>): (r: seq<Param>)
    ensures |r| == |roles|
  {
    if roles == [] then [] else [PRole(roles[0])] + RoleParams(roles[1..])
  }

  /** The i-th role value is the i-th acceptable role, in order. */
  lemma {:induction false} RoleParamsInOrder(roles: seq<Role>)
    ensures forall i :: 0 <= i < |roles| ==> RoleParams(roles)[i] == PRole(roles[i])
  {
    if roles != [] {
      RoleParamsInOrder(roles[1..]);
    }
  }

  /** `da.role IN (?,?)`: one placeholder per acceptable role. */
  function RoleList(roles: seq<Role>): (r: Clause)
    requires |roles| >= 1
    ensures WellFormed(r) && r.params == RoleParams(roles)
  {
    ValueList(RoleParams(roles), ",")
  }

  /** The principals an explicit entry may name: the user, a team the user
      belongs to, or an acceptable role. */
  method ExplicitGrantees(userId: int, okRoles: seq<Role>) returns (r: Clause)
    requires |okRoles| >= 1
    ensures r.params == [PInt(userId), PInt(userId)] + RoleParams(okRoles)
    ensures WellFormed(r)
  {
    var principals :=
      Lit(" AND ( da.user_id = ")
      .Then(Bound(PInt(userId)))
      .Then(Lit(TeamMembership))
      .Then(Bound(PInt(userId)));
    assert principals.params == [PInt(userId), PInt(userId)];
    r := principals.Then(Lit(") OR da.role IN (")).Then(RoleList(okRoles)).Then(Lit(") )"));
  }

  /** Rows with an explicit ACL entry, on themselves or their folder, granted to
      the user, to one of the user's teams or to an acceptable role. */
  method ExplicitAclSubquery(d: DashboardPermissionFilter, okRoles: seq<Role>) returns (r: Clause)
    requires |okRoles| >= 1
    ensures |r.params| >= 2 && r.params[..2] == [PInt(d.orgId), PPermission(d.permissionLevel)]
    ensures r.params[2..] == [PInt(d.userId), PInt(d.userId)] + RoleParams(okRoles)
    ensures WellFormed(r)
  {
    var head :=
      Lit(ExplicitAclJoin)
      .Then(Bound(PInt(d.orgId)))
      .Then(Lit(" AND da.permission >= "))
      .Then(Bound(PPermission(d.permissionLevel)));
    assert head.params == [PInt(d.orgId), PPermission(d.permissionLevel)];
    var grantees := ExplicitGrantees(d.userId, okRoles);
    r := head.Then(grantees);
  }

  /** Rows with no ACL entry anywhere in their chain, which fall back to the
      default entries stored under organisation -1; the dialect's false literal
      is written into the text, not bound. */
  method DefaultAclSubquery(d: DashboardPermissionFilter, okRoles: seq<Role>) returns (r: Clause)
    requires |okRoles| >= 1
    ensures r.params == [PInt(d.orgId), PPermission(d.permissionLevel), PInt(d.userId)]
                        + RoleParams(okRoles)
    ensures WellFormed(r)
    ensures |r.text| >= 2 && r.text[1] == Text(d.falseLiteral)
  {
    var join :=
      Lit(DefaultAclJoin)
      .Then(Lit(d.falseLiteral))
      .Then(Lit(") OR (folder.id IS NULL AND d.has_acl = "))
      .Then(Lit(d.falseLiteral))
      .Then(Lit(") ) )"));
    assert join.params == [] && join.text[1] == Text(d.falseLiteral);
    var cond :=
      Lit(" WHERE d.org_id = ")
      .Then(Bound(PInt(d.orgId)))
      .Then(Lit(" AND da.permission >= "))
      .Then(Bound(PPermission(d.permissionLevel)))
      .Then(Lit(" AND ( da.user_id = "))
      .Then(Bound(PInt(d.userId)));
    assert cond.params == [PInt(d.orgId), PPermission(d.permissionLevel), PInt(d.userId)];
    var roles := Lit(" OR da.role IN (").Then(RoleList(okRoles)).Then(Lit(") )"));
    assert roles.params == RoleParams(okRoles);
    var body := join.Then(cond);
    assert body.params == cond.params;
    r := body.Then(roles);
    assert r.text[1] == join.text[1];
  }

  /**
   The legacy predicate: nothing for an administrator, whatever the level, user
   or organisation; otherwise the union of the explicit-ACL subquery and the
   default-permission subquery, whose placeholders, read in text order, carry
   the organisation, level, user (twice) and roles, then the organisation, level,
   user and roles again.
   */
  method Where(d: DashboardPermissionFilter) returns (r: Clause)
    ensures d.orgRole == Admin ==> r == Empty
    ensures d.orgRole != Admin ==> WellFormed(r)
    ensures d.orgRole != Admin ==> |r.params| == 7 + 2 * |OkRoles(d.orgRole)|
    ensures d.orgRole != Admin ==>
      var ok := RoleParams(OkRoles(d.orgRole));
      && r.params == [PInt(d.orgId), PPermission(d.permissionLevel), PInt(d.userId), PInt(d.userId)] + ok
                     + [PInt(d.orgId), PPermission(d.permissionLevel), PInt(d.userId)] + ok
      && BoundValues(Bind(r.text, r.params)) == r.params
    ensures d.orgRole != Admin ==> Text(d.falseLiteral) in r.text
  {
    if d.orgRole == Admin {
      return Empty;
    }
    var okRoles := OkRoles(d.orgRole);
    var explicit := ExplicitAclSubquery(d, okRoles);
    var default := DefaultAclSubquery(d, okRoles);
    var before := Lit(UnionHead)
                  .Then(explicit).Then(Lit(" UNION"));
    assert before.params == explicit.params;
    r := before.Then(default).Then(Lit(" ) AS a ) )"));
    assert r.params == explicit.params + default.params;
    assert r.text[|before.text| + 1] == default.text[1];
    BindPositional(r);
  }
}

=== FILE: recursive.dfy ===
/**
 Recursive query collection: named recursive CTE definitions that extend a
 folder-level grant to every descendant folder, and the `WITH RECURSIVE`
 preamble that carries them.
 */
module RecursiveQueries {
  import opened Sql

  /** One definition for the folder branch, one for the dashboard's parent-folder check. */
  const MaximumRecursiveQueries: nat := 2

  /** The pieces of a definition's text around its name and its selector. */
  const DefinitionBase: string := " AS ( SELECT uid, parent_uid, org_id FROM folder WHERE uid IN "
  const DefinitionStep: string := " UNION ALL SELECT f.uid, f.parent_uid, f.org_id FROM folder f INNER JOIN "
  const DefinitionJoin: string := " r ON f.parent_uid = r.uid and f.org_id = r.org_id )"

  function DigitChar(d: nat): (c: char)
    requires d < 10
    ensures '0' <= c <= '9'
  {
    ('0' as int + d) as char
  }

  /** Decimal rendering of a natural number, as `%d` prints it. */
  function DecimalString(n: nat): (r: string)
    ensures |r| >= 1
    ensures forall i :: 0 <= i < |r| ==> '0' <= r[i] <= '9'
  {
    if n < 10 then [DigitChar(n)] else DecimalString(n / 10) + [DigitChar(n % 10)]
  }

  /** The number a string of decimal digits denotes, read left to right. */
  function DigitsValue(s: string): nat
    requires forall i :: 0 <= i < |s| ==> '0' <= s[i] <= '9'
  {
    if s == [] then 0 else DigitsValue(s[..|s| - 1]) * 10 + (s[|s| - 1] as int - '0' as int)
  }

  /** `%d` is read back as the number it printed. */
  lemma {:induction false} DecimalRoundTrip(n: nat)
    ensures DigitsValue(DecimalString(n)) == n
  {
    var d := DecimalString(n);
    if n >= 10 {
      assert d[..|d| - 1] == DecimalString(n / 10);
      DecimalRoundTrip(n / 10);
    }
  }

  /** Distinct numbers print differently: `%d` loses nothing. */
  lemma DecimalStringInjective(m: nat, n: nat)
    requires DecimalString(m) == DecimalString(n)
    ensures m == n
  {
    DecimalRoundTrip(m);
    DecimalRoundTrip(n);
  }

  /** The name of the n-th definition created during one compilation, `RecQry<n>`. */
  function RecQueryName(n: nat): (r: string)
    ensures |r| >= 7 && r[..6] == "RecQry" && r[6..] == DecimalString(n)
  {
    var r := "RecQry" + DecimalString(n);
    assert r[6..] == DecimalString(n);
    r
  }

  /** Everything after the `RecQry` prefix is decimal digits, and they read back as `n`. */
  lemma RecQueryNameReadsBack(n: nat)
    ensures forall i :: 6 <= i < |RecQueryName(n)| ==> '0' <= RecQueryName(n)[i] <= '9'
    ensures DigitsValue(RecQueryName(n)[6..]) == n
  {
    DecimalRoundTrip(n);
  }

  /** Definitions created at different counts never share a name. */
  lemma RecQueryNamesDistinct(m: nat, n: nat)
    requires m != n
    ensures RecQueryName(m) != RecQueryName(n)
  {
    RecQueryNameReadsBack(m);
    RecQueryNameReadsBack(n);
  }

  /** The definition `q` starts with, and so defines, the name `name`. */
  predicate Defines(q: Clause, name: string)
  {
    |q.text| >= 1 && q.text[0] == Text(name)
  }

  /** The i-th recursive definition is named `RecQry<i>`. */
  predicate NamedInOrder(recQueries: seq<Clause>)
  {
    forall i :: 0 <= i < |recQueries| ==> Defines(recQueries[i], RecQueryName(i))
  }

  /**
   `name AS (base UNION ALL step)`: the base case selects the folders whose
   uid the selector yields, the step adds every child, in the same
   organisation, of a folder already selected.
   */
  function Definition(name: string, selector: Clause): (r: Clause)
    ensures Defines(r, name)
    ensures WellFormed(selector) ==> WellFormed(r)
    ensures r.params == selector.params
    ensures |r.text| == |selector.text| + 5 && r.text[2..|selector.text| + 2] == selector.text
  {
    var base := [Text(name), Text(DefinitionBase)];
    var step := [Text(DefinitionStep), Text(name), Text(DefinitionJoin)];
    LiteralText(base);
    LiteralText(step);
    PlaceholdersAppend(base, selector.text);
    PlaceholdersAppend(base + selector.text, step);
    Clause(base + selector.text + step, selector.params)
  }

  /**
   Capture a definition over the selector's current parameters. The captured
   parameters are a value of their own: whatever later happens to the buffer
   they were read from, the definition keeps them (see module Scratch).
   */
  method AddRecQuery(recQueries: seq<Clause>, name: string, selector: Clause) returns (r: seq<Clause>)
    ensures |r| == |recQueries| + 1
    ensures r[..|recQueries|] == recQueries
    ensures Defines(r[|recQueries|], name)
    ensures r[|recQueries|].params == selector.params
    ensures r[|recQueries|] == Definition(name, selector)
    ensures WellFormed(selector) ==> WellFormed(r[|recQueries|])
    ensures AllWellFormed(recQueries) && WellFormed(selector) ==> AllWellFormed(r)
    ensures NamedInOrder(recQueries) && name == RecQueryName(|recQueries|) ==> NamedInOrder(r)
  {
    var d := Definition(name, selector);
    r := recQueries + [d];
    assert r[|recQueries|] == d;
    assert forall i :: 0 <= i < |recQueries| ==> r[i] == recQueries[i];
  }

  lemma {:induction false} AllParamsSnoc(cs: seq<Clause>, c: Clause)
    ensures AllParams(cs + [c]) == AllParams(cs) + c.params
    decreases |cs|
  {
    if cs == [] {
      assert [] + [c] == [c];
      assert AllParams([c]) == c.params + AllParams([]);
    } else {
      assert (cs + [c])[1..] == cs[1..] + [c];
      AllParamsSnoc(cs[1..], c);
    }
  }

  /** One definition added after the existing ones adds its parameters last. */
  lemma AllParamsExtended(cs: seq<Clause>, extended: seq<Clause>)
    requires |extended| == |cs| + 1 && extended[..|cs|] == cs
    ensures AllParams(extended) == AllParams(cs) + extended[|cs|].params
  {
    assert extended == cs + [extended[|cs|]];
    AllParamsSnoc(cs, extended[|cs|]);
  }

  /** The parameters of several clauses, one after the other. */
  function AllParams(cs: seq<Clause>): seq<Param>
  {
    if cs == [] then [] else cs[0].params + AllParams(cs[1..])
  }

  predicate AllWellFormed(cs: seq<Clause>)
  {
    forall i :: 0 <= i < |cs| ==> WellFormed(cs[i])
  }

  /** `,q1,q2…`: every clause preceded by a comma. */
  function CommaPrefixed(cs: seq<Clause>): (r: Clause)
    ensures AllWellFormed(cs) ==> WellFormed(r)
    ensures r.params == AllParams(cs)
  {
    if cs == [] then Empty else Lit(",").Then(cs[0]).Then(CommaPrefixed(cs[1..]))
  }

  /**
   The preamble: nothing when no definition was created, otherwise
   `WITH RECURSIVE` and the definitions comma-joined in creation order, with
   their parameters concatenated in the same order.
   */
  function With(recQueries: seq<Clause>): (r: Clause)
    ensures recQueries == [] ==> r == Empty
    ensures recQueries != [] ==> |r.text| >= 1 && r.text[0] == Text("WITH RECURSIVE ")
    ensures AllWellFormed(recQueries) ==> WellFormed(r)
    ensures r.params == AllParams(recQueries)
    ensures |recQueries| == 1 ==> r.text == [Text("WITH RECURSIVE ")] + recQueries[0].text
    ensures |recQueries| == 2 ==>
      r.text == [Text("WITH RECURSIVE ")] + recQueries[0].text + [Text(",")] + recQueries[1].text
  {
    if recQueries == [] then Empty
    else
      var r := Lit("WITH RECURSIVE ").Then(recQueries[0]).Then(CommaPrefixed(recQueries[1..]));
      assert |recQueries| == 2 ==> CommaPrefixed(recQueries[1..]).text == [Text(",")] + recQueries[1].text by {
        if |recQueries| == 2 {
          assert recQueries[1..][1..] == [];
        }
      }
      r
  }

  /** Two definitions are named apart, so the preamble never defines a name twice. */
  lemma NamesDistinct()
    ensures RecQueryName(0) == "RecQry0" && RecQueryName(1) == "RecQry1"
    ensures RecQueryName(0) != RecQueryName(1)
  {
    assert DecimalString(0) == "0";
    assert DecimalString(1) == "1";
    assert RecQueryName(0)[6] != RecQueryName(1)[6];
  }
}

/**
 Go slices share backing arrays. The scratch parameter buffer is emptied with
 `args[:0]` and refilled, which writes over the array it shares with any slice
 taken earlier. This module models that memory so the defensive copy made when a
 recursive definition is captured can be stated.
 */
module Scratch {
  import opened Sql

  /** A slice: the first `len` cells of backing array number `backing`. */
  datatype Slice = Slice(backing: nat, len: nat)

  /** Backing arrays by number; an array's length is its capacity. */
  datatype Memory = Memory(arrays: seq<seq<Param>>)

  predicate Valid(m: Memory, s: Slice)
  {
    s.backing < |m.arrays| && s.len <= |m.arrays[s.backing]|
  }

  function Contents(m: Memory, s: Slice): seq<Param>
    requires Valid(m, s)
  {
    m.arrays[s.backing][..s.len]
  }

  /** `s = append(s, x)`: in place while capacity remains, else into a new array. */
  function Append(m: Memory, s: Slice, x: Param): (r: (Memory, Slice))
    requires Valid(m, s)
    ensures Valid(r.0, r.1)
    ensures Contents(r.0, r.1) == Contents(m, s) + [x]
    ensures |r.0.arrays| >= |m.arrays|
    ensures forall a :: 0 <= a < |m.arrays| && a != s.backing ==> r.0.arrays[a] == m.arrays[a]
    ensures r.1.backing == s.backing ==> r.0.arrays[s.backing][..s.len] == m.arrays[s.backing][..s.len]
  {
    var backing := m.arrays[s.backing];
    if s.len < |backing| then
      var b' := backing[s.len := x];
      assert b'[..s.len + 1] == backing[..s.len] + [x];
      (Memory(m.arrays[s.backing := b']), Slice(s.backing, s.len + 1))
    else
      (Memory(m.arrays + [Contents(m, s) + [x]]), Slice(|m.arrays|, s.len + 1))
  }

  /**
   `s = append(s, xs...)`: written in place when all the values fit in the
   capacity; otherwise one new array receives the contents and the values,
   and the old array is left as it was.
   */
  function AppendAll(m: Memory, s: Slice, xs: seq<Param>): (r: (Memory, Slice))
    requires Valid(m, s)
    ensures Valid(r.0, r.1)
    ensures Contents(r.0, r.1) == Contents(m, s) + xs
    ensures |r.0.arrays| >= |m.arrays|
    ensures forall a :: 0 <= a < |m.arrays| && a != s.backing ==> r.0.arrays[a] == m.arrays[a]
    ensures Valid(r.0, s) && Contents(r.0, s) == Contents(m, s)
    ensures s.len + |xs| <= |m.arrays[s.backing]| ==> r.1.backing == s.backing
    ensures s.len + |xs| > |m.arrays[s.backing]| ==> r.1.backing != s.backing && r.0.arrays[s.backing] == m.arrays[s.backing]
  {
    var backing := m.arrays[s.backing];
    if s.len + |xs| <= |backing| then
      var b' := backing[..s.len] + xs + backing[s.len + |xs|..];
      assert b'[..s.len + |xs|] == backing[..s.len] + xs;
      assert b'[..s.len] == backing[..s.len];
      (Memory(m.arrays[s.backing := b']), Slice(s.backing, s.len + |xs|))
    else
      (Memory(m.arrays + [Contents(m, s) + xs]), Slice(|m.arrays|, s.len + |xs|))
  }

  /** Appending one value is appending the one-element list: both take the same branch. */
  lemma AppendIsAppendAllOfOne(m: Memory, s: Slice, x: Param)
    requires Valid(m, s)
    ensures Append(m, s, x) == AppendAll(m, s, [x])
  {
    var backing := m.arrays[s.backing];
    if s.len < |backing| {
      assert backing[s.len := x] == backing[..s.len] + [x] + backing[s.len + 1..];
    }
  }

  /**
   Refilling a buffer truncated with `[:0]` with no more elements than it held
   writes them over the cells every earlier slice of that buffer still shows.
   */
  lemma RefillOverwrites(m: Memory, s: Slice, xs: seq<Param>)
    requires Valid(m, s) && |xs| <= s.len
    ensures AppendAll(m, Slice(s.backing, 0), xs).1.backing == s.backing
    ensures Valid(AppendAll(m, Slice(s.backing, 0), xs).0, s)
    ensures Contents(AppendAll(m, Slice(s.backing, 0), xs).0, s) == xs + Contents(m, s)[|xs|..]
  {
    var backing := m.arrays[s.backing];
    var b' := backing[..0] + xs + backing[|xs|..];
    assert AppendAll(m, Slice(s.backing, 0), xs).0.arrays[s.backing] == b';
    assert b'[..s.len] == xs + backing[|xs|..s.len];
  }

  /**
   Why the copy matters: a definition that kept a slice of the buffer instead of
   a copy would show the refill's values once the buffer is reused, while the
   copy, made into an array of its own, keeps the parameters it was captured with.
   */
  lemma SharedSliceIsCorrupted()
    ensures var m := Memory([[PInt(1), PAction("dashboards:read")]]);
            var s := Slice(0, 2);
            var captured := Contents(m, s);
            var withCopy := Memory(m.arrays + [captured]);
            var refilled := AppendAll(withCopy, Slice(0, 0), [PInt(1), PAction("folders:read")]).0;
            && Contents(refilled, s) != captured
            && Contents(refilled, Slice(1, 2)) == captured
  {
    var m := Memory([[PInt(1), PAction("dashboards:read")]]);
    var s := Slice(0, 2);
    var withCopy := Memory(m.arrays + [Contents(m, s)]);
    RefillOverwrites(withCopy, s, [PInt(1), PAction("folders:read")]);
    var refilled := AppendAll(withCopy, Slice(0, 0), [PInt(1), PAction("folders:read")]).0;
    assert Contents(refilled, s)[1] == PAction("folders:read");
    assert Contents(m, s)[1] == PAction("dashboards:read");
    assert "folders:read"[0] != "dashboards:read"[0];
  }
}

=== FILE: sql.dfy ===
/** Organisation-level basic roles (org.RoleType). */
module Org {
  datatype Role = NoBasicRole | Viewer | Editor | Admin
}

/**
 The clause accumulator: SQL text paired with the ordered values bound to its
 positional placeholders. Text is a sequence of segments in which `Placeholder`
 stands for the only `?` character; the literal SQL fragments carry no other.
 */
module Sql {
  import opened Org

  /** A value bound to a placeholder (the Go code boxes these as interface{}). */
  datatype Param =
    | PInt(i: int)            // organisation and user ids, action counts
    | PString(s: string)      // values produced by collaborators (role filter)
    | PRole(role: Role)
    | PPermission(level: int)
    | PAction(action: string)

  datatype Segment = Text(s: string) | Placeholder

  /** One piece of a clause once its placeholders are bound. */
  datatype Piece = Sql(s: string) | Value(p: Param)

  datatype Clause = Clause(text: seq<Segment>, params: seq<Param>)
  {
    /** Textual concatenation; the parameters follow the text order. */
    function Then(other: Clause): (r: Clause)
      ensures r.text == text + other.text
      ensures r.params == params + other.params
      ensures WellFormed(this) && WellFormed(other) ==> WellFormed(r)
    {
      PlaceholdersAppend(text, other.text);
      Clause(text + other.text, params + other.params)
    }
  }

  function Placeholders(text: seq<Segment>): nat
  {
    if |text| == 0 then 0
    else (if text[0].Placeholder? then 1 else 0) + Placeholders(text[1..])
  }

  /** The clause invariant: one parameter per placeholder. */
  predicate WellFormed(c: Clause)
  {
    Placeholders(c.text) == |c.params|
  }

  /** The empty clause: no text, no parameters. */
  const Empty: Clause := Clause([], [])

  /** A literal SQL fragment without placeholders. */
  function Lit(s: string): (r: Clause)
    ensures WellFormed(r) && r.params == []
  {
    Clause([Text(s)], [])
  }

  /** A single placeholder bound to `p`. */
  function Bound(p: Param): (r: Clause)
    ensures WellFormed(r) && r.params == [p]
  {
    Clause([Placeholder], [p])
  }

  lemma {:induction false} PlaceholdersAppend(a: seq<Segment>, b: seq<Segment>)
    ensures Placeholders(a + b) == Placeholders(a) + Placeholders(b)
  {
    if |a| == 0 {
      assert a + b == b;
    } else {
      assert (a + b)[1..] == a[1..] + b;
      PlaceholdersAppend(a[1..], b);
    }
  }

  /** Text made of literal SQL only. */
  lemma {:induction false} LiteralText(text: seq<Segment>)
    requires forall i :: 0 <= i < |text| ==> text[i].Text?
    ensures Placeholders(text) == 0
  {
    if |text| > 0 {
      LiteralText(text[1..]);
    }
  }

  /**
   `?` followed by `k - 1` copies of `sep ?`: the text of a placeholder list
   such as `?, ?, ?`, built by `"?" + strings.Repeat(sep + "?", k - 1)`.
   */
  function PlaceholderList(k: nat, sep: string): (r: seq<Segment>)
    requires k >= 1
    ensures Placeholders(r) == k
    ensures r[0] == Placeholder && r[|r| - 1] == Placeholder
    ensures forall i :: 0 <= i < |r| ==> r[i] == Placeholder || r[i] == Text(sep)
  {
    if k == 1 then [Placeholder]
    else
      var rest := PlaceholderList(k - 1, sep);
      PlaceholdersAppend(rest, [Text(sep), Placeholder]);
      PlaceholdersAppend([Text(sep)], [Placeholder]);
      rest + [Text(sep), Placeholder]
  }

  /** A non-empty list of values bound to a separated placeholder list. */
  function ValueList(ps: seq<Param>, sep: string): (r: Clause)
    requires |ps| >= 1
    ensures WellFormed(r) && r.params == ps
  {
    Clause(PlaceholderList(|ps|, sep), ps)
  }

  /** Replace each placeholder with the next parameter, in order. */
  function Bind(text: seq<Segment>, params: seq<Param>): (r: seq<Piece>)
    requires Placeholders(text) == |params|
    ensures |r| == |text|
    ensures forall i :: 0 <= i < |text| ==> (text[i].Text? <==> r[i].Sql?)
    ensures forall i :: 0 <= i < |text| && text[i].Text? ==> r[i] == Sql(text[i].s)
  {
    if |text| == 0 then []
    else match text[0]
      case Text(s) => [Sql(s)] + Bind(text[1..], params)
      case Placeholder => [Value(params[0])] + Bind(text[1..], params[1..])
  }

  /** The value a piece carries: one for a bound placeholder, none for text. */
  function PieceValue(piece: Piece): seq<Param>
  {
    if piece.Value? then [piece.p] else []
  }

  /** The values of a bound clause, in text order. */
  function BoundValues(pieces: seq<Piece>): seq<Param>
  {
    if |pieces| == 0 then [] else PieceValue(pieces[0]) + BoundValues(pieces[1..])
  }

  lemma Assoc<T>(x: seq<T>, y: seq<T>, z: seq<T>)
    ensures x + (y + z) == (x + y) + z
  {
  }

  lemma {:induction false} BoundValuesAppend(a: seq<Piece>, b: seq<Piece>)
    ensures BoundValues(a + b) == BoundValues(a) + BoundValues(b)
    decreases |a|
  {
    if |a| == 0 {
      assert a + b == b;
    } else {
      var ab := a + b;
      assert ab[0] == a[0];
      assert ab[1..] == a[1..] + b;
      BoundValuesAppend(a[1..], b);
      calc {
        BoundValues(ab);
        PieceValue(a[0]) + BoundValues(a[1..] + b);
        PieceValue(a[0]) + (BoundValues(a[1..]) + BoundValues(b));
        { Assoc(PieceValue(a[0]), BoundValues(a[1..]), BoundValues(b)); }
        (PieceValue(a[0]) + BoundValues(a[1..])) + BoundValues(b);
      }
    }
  }

  /** Reading the values off the bound text gives back the parameters in order:
      the n-th placeholder carries the n-th parameter. */
  lemma {:induction false} BindPositional(c: Clause)
    requires WellFormed(c)
    ensures BoundValues(Bind(c.text, c.params)) == c.params
    decreases |c.text|
  {
    if |c.text| == 0 {
    } else {
      var b := Bind(c.text, c.params);
      assert b == [b[0]] + b[1..];
      BoundValuesAppend([b[0]], b[1..]);
      match c.text[0]
      case Text(s) =>
        BindPositional(Clause(c.text[1..], c.params));
      case Placeholder =>
        BindPositional(Clause(c.text[1..], c.params[1..]));
    }
  }

  /** Concatenation keeps every parameter paired with its own placeholder. */
  lemma {:induction false} BindThen(a: Clause, b: Clause)
    requires WellFormed(a) && WellFormed(b)
    ensures WellFormed(a.Then(b))
    ensures Bind(a.Then(b).text, a.Then(b).params)
         == Bind(a.text, a.params) + Bind(b.text, b.params)
    decreases |a.text|
  {
    PlaceholdersAppend(a.text, b.text);
    var t := a.text + b.text;
    var ps := a.params + b.params;
    if |a.text| == 0 {
      assert t == b.text;
      assert ps == b.params;
    } else {
      assert t[0] == a.text[0];
      assert t[1..] == a.text[1..] + b.text;
      match a.text[0]
      case Text(s) =>
        var rest := Clause(a.text[1..], a.params);
        BindThen(rest, b);
        calc {
          Bind(t, ps);
          [Sql(s)] + Bind(t[1..], ps);
          [Sql(s)] + (Bind(rest.text, rest.params) + Bind(b.text, b.params));
          { Assoc([Sql(s)], Bind(rest.text, rest.params), Bind(b.text, b.params)); }
          ([Sql(s)] + Bind(rest.text, rest.params)) + Bind(b.text, b.params);
        }
      case Placeholder =>
        var rest := Clause(a.text[1..], a.params[1..]);
        assert ps[0] == a.params[0];
        assert ps[1..] == rest.params + b.params;
        BindThen(rest, b);
        var v := [Value(a.params[0])];
        calc {
          Bind(t, ps);
          v + Bind(t[1..], ps[1..]);
          v + (Bind(rest.text, rest.params) + Bind(b.text, b.params));
          { Assoc(v, Bind(rest.text, rest.params), Bind(b.text, b.params)); }
          (v + Bind(rest.text, rest.params)) + Bind(b.text, b.params);
        }
    }
  }

}

=== FILE: wildcards.dfy ===
/**
 The wildcard resolver: which required actions are already granted through a
 wildcard scope (and so need no per-row check), and which must be verified
 against explicit scopes.
 */
module Wildcards {

  /** The containment test of one set of wildcards (accesscontrol.Wildcards.Contains). */
  type Wildcard = string -> bool

  /** Per-action granted scopes of one organisation: action -> scopes. */
  type PermissionIndex = map<string, seq<string>>

  /** The scopes granted for an action; an action never granted has none. */
  function Granted(permissions: PermissionIndex, action: string): seq<string>
  {
    if action in permissions then permissions[action] else []
  }

  /** Some granted scope is contained by one of the wildcards. */
  predicate HasWildcard(scopes: seq<string>, wildcards: seq<Wildcard>)
  {
    exists i, j :: 0 <= i < |scopes| && 0 <= j < |wildcards| && wildcards[j](scopes[i])
  }

  /** The action is not satisfied by any wildcard grant. */
  predicate NeedsCheck(permissions: PermissionIndex, wildcards: seq<Wildcard>, action: string)
  {
    !HasWildcard(Granted(permissions, action), wildcards)
  }

  /** `sub` can be obtained from `s` by deleting elements. */
  ghost predicate IsSubsequence(sub: seq<string>, s: seq<string>)
    decreases |s|
  {
    if sub == [] then true
    else if s == [] then false
    else (sub[0] == s[0] && IsSubsequence(sub[1..], s[1..])) || IsSubsequence(sub, s[1..])
  }

  /**
   The actions that still need an explicit scope check, in input order: exactly
   the occurrences of actions none of whose granted scopes a wildcard covers.
   */
  function ActionsToCheck(actions: seq<string>, permissions: PermissionIndex, wildcards: seq<Wildcard>)
    : (r: seq<string>)
    ensures |r| <= |actions|
  {
    if actions == [] then []
    else
      var rest := ActionsToCheck(actions[1..], permissions, wildcards);
      if NeedsCheck(permissions, wildcards, actions[0]) then [actions[0]] + rest else rest
  }

  /** What the resolver keeps is a subsequence of the input: order is preserved. */
  lemma {:induction false} ActionsToCheckOrdered(
    actions: seq<string>, permissions: PermissionIndex, wildcards: seq<Wildcard>)
    ensures IsSubsequence(ActionsToCheck(actions, permissions, wildcards), actions)
    decreases |actions|
  {
    if actions != [] {
      var rest := ActionsToCheck(actions[1..], permissions, wildcards);
      ActionsToCheckOrdered(actions[1..], permissions, wildcards);
      if NeedsCheck(permissions, wildcards, actions[0]) {
        assert ([actions[0]] + rest)[1..] == rest;
      } else {
        SubsequenceOfTail(rest, actions[1..], actions[0]);
      }
    }
  }

  /** An action is kept exactly when it is required and no wildcard grant covers it. */
  lemma {:induction false} ActionsToCheckMembers(
    actions: seq<string>, permissions: PermissionIndex, wildcards: seq<Wildcard>)
    ensures forall a :: a in ActionsToCheck(actions, permissions, wildcards)
                        <==> a in actions && NeedsCheck(permissions, wildcards, a)
    decreases |actions|
  {
    if actions != [] {
      ActionsToCheckMembers(actions[1..], permissions, wildcards);
      assert actions == [actions[0]] + actions[1..];
    }
  }

  /** A kept action occurs as often as in the input; a covered one not at all. */
  lemma {:induction false} ActionsToCheckCounts(
    actions: seq<string>, permissions: PermissionIndex, wildcards: seq<Wildcard>)
    ensures forall a :: multiset(ActionsToCheck(actions, permissions, wildcards))[a]
                        == if NeedsCheck(permissions, wildcards, a) then multiset(actions)[a] else 0
    decreases |actions|
  {
    if actions != [] {
      ActionsToCheckCounts(actions[1..], permissions, wildcards);
      assert actions == [actions[0]] + actions[1..];
    }
  }

  lemma {:induction false} ActionsToCheckSnoc(
    actions: seq<string>, a: string, permissions: PermissionIndex, wildcards: seq<Wildcard>)
    ensures ActionsToCheck(actions + [a], permissions, wildcards)
         == ActionsToCheck(actions, permissions, wildcards)
            + (if NeedsCheck(permissions, wildcards, a) then [a] else [])
    decreases |actions|
  {
    if actions == [] {
      assert [] + [a] == [a];
    } else {
      assert (actions + [a])[1..] == actions[1..] + [a];
      ActionsToCheckSnoc(actions[1..], a, permissions, wildcards);
    }
  }

  /** The scan over granted scopes and wildcards, leaving both loops at the first hit. */
  method ScanForWildcard(scopes: seq<string>, wildcards: seq<Wildcard>) returns (hasWildcard: bool)
    ensures hasWildcard == HasWildcard(scopes, wildcards)
  {
    hasWildcard := false;
    var i := 0;
    label outer:
    while i < |scopes|
      invariant 0 <= i <= |scopes|
      invariant forall k, j :: 0 <= k < i && 0 <= j < |wildcards| ==> !wildcards[j](scopes[k])
    {
      var j := 0;
      while j < |wildcards|
        invariant 0 <= j <= |wildcards|
        invariant forall m :: 0 <= m < j ==> !wildcards[m](scopes[i])
      {
        if wildcards[j](scopes[i]) {
          hasWildcard := true;
          break outer;
        }
        j := j + 1;
      }
      i := i + 1;
    }
  }

  /** The resolver loop: append each action whose scan found no wildcard. */
  method ResolveActions(actions: seq<string>, permissions: PermissionIndex, wildcards: seq<Wildcard>)
    returns (toCheck: seq<string>)
    ensures toCheck == ActionsToCheck(actions, permissions, wildcards)
  {
    toCheck := [];
    var i := 0;
    while i < |actions|
      invariant 0 <= i <= |actions|
      invariant toCheck == ActionsToCheck(actions[..i], permissions, wildcards)
    {
      var a := actions[i];
      var hasWildcard := ScanForWildcard(Granted(permissions, a), wildcards);
      if !hasWildcard {
        toCheck := toCheck + [a];
      }
      assert actions[..i + 1] == actions[..i] + [a];
      ActionsToCheckSnoc(actions[..i], a, permissions, wildcards);
      i := i + 1;
    }
    assert actions[..i] == actions;
  }

  /** An action for which nothing is granted always needs an explicit check. */
  lemma {:induction false} UngrantedActionIsKept(
    actions: seq<string>, permissions: PermissionIndex, wildcards: seq<Wildcard>, a: string)
    requires a in actions && Granted(permissions, a) == []
    ensures a in ActionsToCheck(actions, permissions, wildcards)
  {
    ActionsToCheckMembers(actions, permissions, wildcards);
  }

  /** An empty result means every action is satisfied through a wildcard. */
  lemma {:induction false} EmptyMeansAllSatisfied(actions: seq<string>, permissions: PermissionIndex, wildcards: seq<Wildcard>)
    ensures ActionsToCheck(actions, permissions, wildcards) == []
        <==> forall a :: a in actions ==> !NeedsCheck(permissions, wildcards, a)
  {
    ActionsToCheckMembers(actions, permissions, wildcards);
    var r := ActionsToCheck(actions, permissions, wildcards);
    if r != [] {
      assert r[0] in r;
    }
  }

  /**
   Supplying more wildcards can only drop actions: resolving dashboard actions
   against dashboard and folder wildcards checks a subsequence of what resolving
   against dashboard wildcards alone would check.
   */
  lemma {:induction false} MoreWildcardsCheckLess(
    actions: seq<string>, permissions: PermissionIndex, w1: seq<Wildcard>, w2: seq<Wildcard>)
    ensures IsSubsequence(ActionsToCheck(actions, permissions, w1 + w2),
                          ActionsToCheck(actions, permissions, w1))
    decreases |actions|
  {
    if actions != [] {
      var a := actions[0];
      MoreWildcardsCheckLess(actions[1..], permissions, w1, w2);
      var big := ActionsToCheck(actions[1..], permissions, w1 + w2);
      var small := ActionsToCheck(actions[1..], permissions, w1);
      HasWildcardPrefix(Granted(permissions, a), w1, w2);
      if NeedsCheck(permissions, w1 + w2, a) {
        assert ([a] + big)[1..] == big;
        assert ([a] + small)[1..] == small;
      } else if NeedsCheck(permissions, w1, a) {
        SubsequenceOfTail(big, small, a);
      }
    }
  }

  lemma HasWildcardPrefix(scopes: seq<string>, w1: seq<Wildcard>, w2: seq<Wildcard>)
    ensures HasWildcard(scopes, w1) ==> HasWildcard(scopes, w1 + w2)
  {
    if HasWildcard(scopes, w1) {
      var i, j :| 0 <= i < |scopes| && 0 <= j < |w1| && w1[j](scopes[i]);
      assert (w1 + w2)[j] == w1[j];
    }
  }

  lemma {:induction false} SubsequenceOfTail(sub: seq<string>, s: seq<string>, a: string)
    requires IsSubsequence(sub, s)
    ensures IsSubsequence(sub, [a] + s)
  {
    if sub != [] {
      assert ([a] + s)[1..] == s;
    }
  }
}
